=== FILE: README.md ===
# Signal, backtest and weight core of a trading-signal toolkit

This project is a Dafny model of the decision and accounting core of a small
trading-signal toolkit for stock tickers. The model covers:

- **Signals** (`signals.py`). `signal_from_row` turns one row of technical
  indicators into BUY, SELL or HOLD. The indicators are the short and long
  moving averages, RSI, MACD and its signal line. `generate_signals` keeps,
  per ticker, the latest indicator row and its signal.
- **Per-ticker backtest** (`backtest.py`). `backtest_ticker` classifies every
  indicator row and holds yesterday's signal as today's position (+1, 0 or
  -1). It earns position × price return, pays `cost_bps` basis points per
  unit of position change, and compounds the net returns into an equity
  curve. `_metrics` reports the maximum drawdown and the hit ratio of those
  returns.
- **Portfolio backtest** (`backtest.py`). `backtest_portfolio` runs every
  ticker and aligns their return series on the union of their dates, with a
  missing return counting as 0. It weights the columns, using equal weights
  when none are given, sums them per date, and compounds the result.
- **Weight strings** (`cli.py`). `parse_weights` reads `"A=0.5, B=0.5"`
  into a weight dictionary. It rescales the weights when they do not total
  1 within `1e-6`, and gives every configured ticker without a weight the
  weight 0.
- **Sector report** (`portfolio.py`). `sector_report` lists, per sector, the
  tickers that have a last price, their average price and their number,
  ordered by sector name.

The modules follow the source files:

- `Signals`: signals.py.
- `Backtest` and `Metrics`: `backtest_ticker` and `_metrics`.
- `PortfolioBacktest`: `backtest_portfolio`.
- `Weights` and `Cli`: the weight dictionaries and `parse_weights`.
- `SectorReport`: portfolio.py.
- `Wrappers`, `Market`, `Numbers`, `Dicts` and `Text` hold the shared vocabulary:
  - `Option`/`Result`.
  - Ticker symbols and trading dates.
  - Sums, means and weighted sums over `real`.
  - Python dictionaries as insertion-ordered lists of pairs with unique keys.
  - `str.split`, `str.strip`, `str.join` and Python's string order.

The model makes these choices:

- Prices and returns are `real`.
- A quantity pandas reports as NaN is `None`.
- An exception that escapes is a `Result.Failure` naming it.
- The external technical-analysis library is a function parameter
  (`Signals.Engine`). It maps a price series and the window lengths to the
  indicator rows that have full history.
- Python's `float()` on a piece of the weight string is also a parameter
  (`Cli.FloatParser`).

Behaviour worth noting:

- `backtest_portfolio` applies the weights it is given without rescaling
  them (backtest.py:36-46); only `parse_weights` rescales (cli.py:22-24).
  `PortfolioBacktest.BacktestPortfolio` therefore uses the weights as given,
  and `Cli.Complete` does the rescaling.
- `parse_weights` accepts any number `float()` accepts, negative ones
  included (cli.py:21); nothing requires a weight to be non-negative.
- `signal_from_row` has the defaults 35 and 65 for its RSI gates
  (signals.py:16). `generate_signals` and `backtest_ticker` always pass the
  configured values (signals.py:30, backtest.py:23), so the defaults matter
  only for a direct call (`Signals.ClassifyDefault`).
- Only `None` and the empty string give equal weights (cli.py:15-16). A
  string that is non-empty but blank, such as `" , "`, has no pieces
  (cli.py:17) and so gives every ticker the weight 0
  (`Cli.BlankWeightStringGivesZeros`).
- `sector_report` raises when no sector has a priced ticker, instead of
  returning an empty report (portfolio.py:16; see Findings).
- `indicators` copies the price frame, adds indicator columns and drops
  incomplete rows (signals.py:7-14), and `backtest_ticker` reads the closes
  back from the price frame at the indicator rows' dates (backtest.py:25).
  `Signals.KeepsBars` states what the model needs of the engine for this:
  its rows are bars of the input series, in order, with the dates and
  closes unchanged. `Signals.GenerateSignals`,
  `Backtest.BacktestTickerReadsBars` and
  `PortfolioBacktest.ColumnIsTickerBacktest` use it to tie their results to
  the input bars.

## Model

| member | source | states |
|---|---|---|
| Signals.Classify | signals.py:16-22 | BUY exactly when short MA > long MA, RSI < the sell gate and MACD > its signal; SELL exactly when the three opposite strict tests hold; HOLD exactly when neither holds (the later SELL assignment never overrides a BUY) |
| Signals.ClassifyDefault | signals.py:16 | with the keyword defaults, BUY needs RSI < 65 and SELL needs RSI > 35 |
| Signals.HoldOnEqualAverages | signals.py:18-21 | equal moving averages always give HOLD, whatever RSI and MACD say |
| Signals.RowIsBar | signals.py:7-14 | under an engine that keeps the input's bars, every indicator row is a bar of the input with the same date and close |
| Signals.RowPairIsBars | signals.py:7-14 | under such an engine, consecutive indicator rows come from two bars of the input in the same order |
| Signals.LatestSignalsKeys | signals.py:24-40 | the dictionary built ticker by ticker has distinct keys, and they are the tickers with a non-empty indicator frame, in the order of `prices` |
| Signals.LatestSignalsEntry | signals.py:26-39 | a ticker is a key exactly when its indicator frame is non-empty, and its value is then the snapshot of the frame's last row |
| Signals.LatestSignalsFrom | signals.py:26-31 | every key of the result is a ticker of `prices` |
| Signals.GenerateSignals | signals.py:24-40 | the keys are exactly the tickers whose indicator frame is non-empty, in the order of `prices`; each entry is the last indicator row's classification and values; under an engine that keeps bars, the entry's close and date are those of a bar of the ticker's own price series |
| Backtest.Exposure | backtest.py:24 | BUY maps to 1, SELL to -1 and HOLD to 0, each exactly |
| Backtest.Exposures | backtest.py:24 | one exposure per signal, each the mapped value of its own signal |
| Backtest.Lag | backtest.py:24 | `shift(1).fillna(0)`: same length, first element is the fill, every later element is the previous input |
| Backtest.PriceReturns | backtest.py:25 | `pct_change().fillna(0)`: first return 0, then close over previous close minus 1 |
| Backtest.Costs | backtest.py:27-28 | first cost 0, then the absolute position change times `cost_bps / 10000` |
| Backtest.CostsNonNegative | backtest.py:27-28 | a non-negative cost setting never yields a negative cost |
| Backtest.CostZeroWhenUnchanged | backtest.py:27-28 | holding the same position costs nothing |
| Backtest.FlipCostsTwice | backtest.py:24-28 | flipping from long to short pays twice the per-unit cost |
| Backtest.NetReturns | backtest.py:26-29 | each net return is position × price return − cost at the same index |
| Backtest.Simulate | backtest.py:23-29 | positions are the previous row's exposure (0 on the first row); each later net return is computed from the two closes, the two positions and the cost rate |
| Backtest.BacktestRows | backtest.py:19-30 | no indicator rows gives the empty result with empty metrics; otherwise positions lag the classification by one row and lie in {-1, 0, 1}, equity compounds the net returns, and the metrics are the drawdown and hit ratio of those series |
| Backtest.BacktestTicker | backtest.py:19-30 | an empty indicator frame gives empty metrics; otherwise one date, position and net return per indicator row, each position the exposure of the previous row's signal under the configured RSI gates |
| Backtest.BacktestTickerReadsBars | backtest.py:23-29 | under an engine that keeps bars, each net return after the first is earned between two bars of the input series, in order, dated on the result's previous and current dates, at the positions the result reports |
| Backtest.BacktestIsCausal | backtest.py:23-30 | positions, net returns and equity up to row k depend only on the first k indicator rows: backtesting a prefix gives the prefix of the full backtest |
| Metrics.Equity | backtest.py:10 | `(1 + r).cumprod()`: one point per return, starting at 1 + r[0], each point the previous times 1 + r |
| Metrics.EquityIsGrowth | backtest.py:10 | each equity point equals the product of (1 + r) over the returns up to it, an independent closed form of the cumulative product |
| Metrics.EquityOfPrefix | backtest.py:10 | the curve of the first k returns is the first k points of the curve |
| Metrics.DrawdownAt | backtest.py:11-12 | the drawdown at a point is never positive, and is zero exactly when that point is a running maximum |
| Metrics.MaxDrawdown | backtest.py:11-13 | NaN (None) exactly for an empty curve; otherwise a value ≤ 0 that is attained at some point and is below every point's drawdown |
| Metrics.NonDecreasingNoDrawdown | backtest.py:10-13 | a curve that never falls has maximum drawdown 0 |
| Metrics.CountPositive | backtest.py:16 | the count of strictly positive returns is all of them exactly when every return is positive, and none exactly when none is |
| Metrics.HitRatio | backtest.py:16 | NaN exactly for no returns; otherwise in [0, 1], the ratio times the length is the number of positive returns, 1 exactly when all are positive, 0 exactly when none is |
| Metrics.SummaryMetrics | backtest.py:6-17 | both metrics are NaN exactly for an empty series; the drawdown is ≤ 0 and the hit ratio lies in [0, 1] |
| PortfolioBacktest.Merge | backtest.py:44 | the union of two increasing date lists is increasing and holds exactly the dates of either |
| PortfolioBacktest.UnionDates | backtest.py:44 | the index of `concat(axis=1)` when every ticker has an indicator row: increasing, and holding exactly the dates of some column |
| PortfolioBacktest.ValueOn | backtest.py:44 | `fillna(0.0)`: a column's value on one of its dates is its return there, and 0 on any other date |
| PortfolioBacktest.TickerColumn | backtest.py:40-41 | each column carries the ticker's indicator dates and exactly the net returns of its own backtest |
| PortfolioBacktest.Columns | backtest.py:38-41 | one column per ticker, in dictionary order, each the ticker's own backtest |
| PortfolioBacktest.ColumnIsTickerBacktest | backtest.py:39-41 | column i is named after ticker i and carries exactly the dates and `returns` of `backtest_ticker` on that ticker's prices |
| PortfolioBacktest.SingleColumnSum | backtest.py:46 | with one column, the per-date portfolio return is that column's filled value times its weight |
| PortfolioBacktest.WeightedSum | backtest.py:44-46 | on a date that no column has, every column is filled with 0 and the portfolio return is 0 |
| PortfolioBacktest.PortfolioReturns | backtest.py:46 | one return per aligned date, each the weighted sum of the filled columns on that date |
| PortfolioBacktest.AlignedWeights | backtest.py:45 | `reindex(df.columns).fillna(0.0)`: one weight per column, the ticker's weight or 0 if it has none |
| PortfolioBacktest.AlignedWeightsScale | backtest.py:45 | scaling the weight dictionary scales every aligned weight by the same factor |
| PortfolioBacktest.WeightedSumScales | backtest.py:45-46 | the per-date portfolio return is linear in the weights: scaled weights give a scaled return |
| PortfolioBacktest.UnlistedWeightIgnored | backtest.py:45 | a weight for a ticker with no column changes nothing in the result |
| PortfolioBacktest.SingleFullWeightIsTicker | backtest.py:44-46 | one ticker with weight 1 gives back exactly that ticker's dates and net returns |
| PortfolioBacktest.NothingBeforeFirstDates | backtest.py:44-46 | on a date no column has passed yet, every column is filled with 0, so the portfolio return is 0 |
| PortfolioBacktest.FirstDateIsFlat | backtest.py:44-47 | the portfolio's first date has return 0 whatever the weights |
| PortfolioBacktest.EffectiveWeights | backtest.py:36-37 | given non-empty weights are used as they are; no weights or an empty dictionary gives every ticker 1/n |
| PortfolioBacktest.Aggregate | backtest.py:44-52 | with the sorted union of the column dates (the index pandas builds when every ticker has an indicator row): dates are increasing and exactly the dates of some column; each return is the weighted sum of the filled columns on that date; the first return is 0 and equity starts at 1; equity compounds the returns; the metric is its maximum drawdown |
| PortfolioBacktest.BacktestPortfolio | backtest.py:32-55 | no tickers gives the empty result with empty metrics; otherwise the aggregate of the per-ticker backtests under the effective weights, on the sorted union of their dates (pandas' order when every ticker has an indicator row) |
| PortfolioBacktest.PortfolioDatesAreTickerDates | backtest.py:38-44 | a date is in the portfolio result exactly when it is an indicator date of some ticker |
| Dicts.Put | cli.py:21 | `w[t] = v`: the key then maps to the value, every other key keeps its value, a new key is appended at the end, an existing one keeps its place, and distinct keys stay distinct |
| Dicts.SetDefault | cli.py:26 | `setdefault(t, 0.0)`: an existing key leaves the dictionary unchanged; a missing one is appended with the default; other keys keep their values |
| Weights.EqualWeights | backtest.py:37 | `{t: 1/len(tickers)}`: exactly the listed tickers, each with one over the length of the list |
| Weights.UniformSum | cli.py:16 | n distinct keys with the same share total n times the share |
| Weights.EqualWeightsSumToOne | cli.py:16 | equal weights over distinct tickers total exactly 1 |
| Weights.ScaledWeightOf | cli.py:24 | dividing every weight by the total divides each ticker's weight by it |
| Weights.SumOfScale | cli.py:24 | scaling every weight scales the total by the same factor |
| Text.Strip | cli.py:17 | `strip()` never lengthens its input; StripIsInfix, StripEnds and StripEmptyIffBlank complete its description |
| Text.Join | portfolio.py:12 | the first piece is a prefix of the result, and every character of the result comes from the separator or from some piece; JoinKeepsChars gives the converse |
| Text.Split | cli.py:17 | `s.split(sep)` has one more piece than `sep` occurs, no piece holds `sep`, and joining the pieces with `sep` gives `s` back |
| Text.SplitJoin | cli.py:17 | splitting a join of separator-free pieces returns the pieces |
| Text.SplitInTwo | cli.py:20 | with exactly one separator, the split is the text before it and the text after it |
| Text.StripIsInfix | cli.py:17 | `strip()` keeps a contiguous run of the text with only whitespace before and after it |
| Text.StripEnds | cli.py:17 | a stripped text neither starts nor ends with whitespace |
| Text.StripEmptyIffBlank | cli.py:17 | a text strips to the empty string exactly when it is all whitespace |
| Cli.StrippedNonBlank | cli.py:17 | never more pieces than parts, and no piece is empty |
| Cli.StrippedNonBlankMembers | cli.py:17 | a piece is kept exactly when it is the non-empty strip of some part |
| Cli.StrippedNonBlankAppend | cli.py:17 | the comprehension distributes over concatenation of the parts, so the pieces keep the order of the parts they come from |
| Cli.StrippedNonBlankOne | cli.py:17 | a single part gives its strip, or nothing when that is blank |
| Cli.Pieces | cli.py:17 | the pieces are the stripped non-blank parts of the comma split, in order; none is empty or holds a comma |
| Cli.ParsePair | cli.py:20-21 | a piece either gives a ticker and a weight or fails with an unpack error or an invalid number, and with no other error |
| Cli.ParsePairSpec | cli.py:20-21 | a piece fails to unpack exactly when it has not exactly one "="; otherwise its ticker is the stripped text before "=" and its weight is `float` of the text after it, or that text is reported as invalid |
| Cli.Assign | cli.py:18-21 | a loop that completes yields a dictionary with distinct keys and at most one entry per piece |
| Cli.AssignOutcome | cli.py:19-21 | reading succeeds exactly when every piece parses; otherwise the error is that of the first failing piece |
| Cli.AssignKeys | cli.py:19-21 | the tickers read are exactly those some piece names |
| Cli.AssignLastWins | cli.py:19-21 | a ticker named several times keeps the value of its last piece |
| Cli.Normalize | cli.py:22-24 | a total within 1e-6 of 1 leaves the weights unchanged; otherwise each weight is divided by the total and the new total is within 1e-6 of 1; a zero total over non-empty weights raises ZeroDivisionError; keys are kept |
| Cli.FillMissing | cli.py:25-26 | existing weights and their order are kept, each missing ticker is appended with 0, and the total is unchanged |
| Cli.Complete | cli.py:22-27 | fails exactly on a zero total over non-empty weights; otherwise holds the read tickers and all configured ones, the unread configured ones at 0 |
| Cli.CompleteTotalsOne | cli.py:22-26 | non-empty read weights always come back totalling 1 within 1e-6, and exactly 1 when they were rescaled |
| Cli.CompleteRescales | cli.py:22-26 | each read ticker's weight is its value divided by the total, or its value unchanged when the total is already within 1e-6 of 1 |
| Cli.ParseWeights | cli.py:14-27 | no string or an empty one gives equal weights; otherwise the first bad piece raises its error, and a successful read is completed; a success covers every configured ticker |
| Cli.NormalizeEvenSplit | cli.py:22-24 | `{A: 2, B: 2}` is rescaled to `{A: 0.5, B: 0.5}` |
| Cli.BlankWeightStringGivesZeros | cli.py:15-27 | a non-empty string of only commas and whitespace has no pieces and gives every configured ticker weight 0 |
| SectorReport.Priced | portfolio.py:7 | only tickers that have a last price are kept, and never more than listed |
| SectorReport.PricedAppend | portfolio.py:7 | the comprehension distributes over concatenation, so kept tickers keep their listed order |
| SectorReport.PricedOne | portfolio.py:7 | a single ticker is kept exactly when it has a last price |
| SectorReport.PricedMembers | portfolio.py:7 | a ticker is kept exactly when it is listed and has a last price |
| SectorReport.PricedCounts | portfolio.py:7 | a priced ticker is kept as many times as it is listed, an unpriced one never |
| SectorReport.NonePriced | portfolio.py:7-9 | nothing is kept exactly when no listed ticker has a price |
| SectorReport.Rows | portfolio.py:5-15 | never more rows than sectors, and a row is collected exactly when it is the row of some listed sector |
| SectorReport.RowsOnePerSector | portfolio.py:6-15 | the sector names are dictionary keys and so distinct, and then no two collected rows share a sector |
| SectorReport.SectorRow | portfolio.py:7-15 | a sector has a row exactly when some ticker of it is priced; the row carries the sector's name and the number of priced tickers |
| SectorReport.SectorRowAverage | portfolio.py:10-15 | the row's tickers, count and average describe the same priced tickers, and the average lies between their lowest and highest price |
| SectorReport.SortBySector | portfolio.py:16 | `sort_values("sector")`: the same rows, in ascending order of sector name |
| SectorReport.SortedIsUnique | portfolio.py:16 | rows with distinct sectors have exactly one order sorted by sector, so stable and unstable sorts agree on them |
| SectorReport.SortKeepsMembers | portfolio.py:16 | sorting keeps exactly the rows it is given, neither adding nor dropping one |
| SectorReport.SectorReportAsWritten | portfolio.py:4-16 | fails exactly when no sector has a priced ticker; otherwise the rows of the priced sectors, sorted by sector |
| SectorReport.UnpricedSectorsRaise | portfolio.py:8-16 | sectors without any priced ticker make the function raise |
| SectorReport.UnpricedSectorExample | portfolio.py:8-16 | `{"Tech": ["ASML.AS"]}` with no prices raises |
| SectorReport.SectorReport | portfolio.py:4-16 | sorted by sector, the rows of the priced sectors, equal to the source's result whenever it returns and empty where it raises |
| SectorReport.SectorReportOnePerSector | portfolio.py:4-16 | the report has at most one row per sector |
| SectorReport.SectorReportIsAnySort | portfolio.py:16 | whichever way `sort_values` orders the collected rows by sector, the result is the report |
| SectorReport.SectorReportCoverage | portfolio.py:6-15 | a sector has a row in the report exactly when one of its tickers is priced |
| SectorReport.SectorReportRowsPriced | portfolio.py:6-15 | every row of the report is the row of a listed sector with a priced ticker |

## Left out

- The indicator library (`signals.indicators`: SMA, RSI and MACD from the `ta` package, then `dropna`) is not modelled. It is the `Engine` parameter, and its output is taken as given.
- CAGR and Sharpe ratio in `_metrics` and `backtest_portfolio` are not modelled. They need square roots and fractional powers, which have no exact counterpart over `real`.
- Floating-point rounding is not modelled. All arithmetic is exact over `real`.
- `float()` on a piece of the weight string is a parameter, because its parsing rules are Python's, not the program's.
- Data fetching, the scanner, forecasting, report rendering and sending, the agent, utilities, the Streamlit app, argument parsing and file output are outside this model. They do I/O or call services.
- Backtest.BacktestRows: requires every close except the last to be non-zero. After a zero close, `pct_change()` gives an infinite return when the next close is non-zero, and NaN when it is zero too, which `fillna(0.0)` (backtest.py:25) turns into 0. The model would divide by zero in both cases and does not cover them.
- Backtest.BacktestTicker: the same non-zero-close requirement on the engine's rows. The keyword default `cost_bps=5` (backtest.py:19) is the constant `Backtest.DefaultCostBps`; the model always takes the cost as an argument.
- PortfolioBacktest.BacktestPortfolio: the keyword default `cost_bps=5` (backtest.py:32) is likewise `Backtest.DefaultCostBps`, and the cost is always an argument.
- Cli.ParseWeights: `Cli.FloatParser` yields a `real` or nothing, so the non-finite values `float()` accepts ("nan", "inf", "1e400", cli.py:21) are not represented. A NaN weight would survive `parse_weights` and be read as 0 by the `fillna(0.0)` of backtest.py:45; the model does not cover that path.
- The indicator engine is unconstrained in the operations themselves. Only the members that tie results to input bars assume `Signals.KeepsBars`. `backtest_ticker`'s lookup of closes by date (backtest.py:25) is modelled as reading the rows' own closes; the two agree under that assumption when the input's dates are distinct.
- PortfolioBacktest.UnionDates, PortfolioBacktest.Aggregate and PortfolioBacktest.BacktestPortfolio: the portfolio index is the sorted union of the tickers' dates. `pd.concat(axis=1)` (backtest.py:44) sorts the union only when every column has a date index. A ticker with no indicator row contributes an empty series with a range index (backtest.py:22, 40-41), and with two or more other tickers pandas then joins the indexes in first-seen order. The model matches the source only when every ticker has at least one indicator row; the first-seen order, and the first-date-is-flat and increasing-dates properties that fail with it, are not modelled for the other case.
- PortfolioBacktest.BacktestPortfolio: requires each ticker's indicator dates to be strictly increasing (an ordered, duplicate-free index), as well as the non-zero closes. Alignment of unordered or duplicated indexes is not modelled.
- Metrics.MaxDrawdown: requires the first equity point to be positive. Every backtest curve starts at 1, because the first return is always 0.
- Metrics.SummaryMetrics: requires the first return to be above -1, for the same reason.
- The sort in `sector_report` is modelled as a sorted permutation of the rows, not as the particular algorithm pandas runs. Sector names are dictionary keys and so distinct, and SectorReport.SectorReportIsAnySort proves that every sorted permutation of such rows is the same list, so the order pandas picks among equal keys never arises.
- The report frame's column layout and dtypes are not modelled. Only the rows' contents and their order are.

## Findings

| source | as written | input that shows it | evidently intended | confidence | as-written member | corrected member |
|---|---|---|---|---|---|---|
| portfolio.py:16 | `pd.DataFrame(rows).sort_values("sector")` on an empty `rows` list builds a frame without a "sector" column and raises `KeyError` | `sector_report({"Tech": ["ASML.AS"]}, {})` | an empty report when no sector has a priced ticker | medium, not executed | SectorReport.UnpricedSectorExample | SectorReport.SectorReport |

=== FILE: backtest.dfy ===
/** `backtest_ticker`: one instrument's strategy returns with a one-period
    execution lag and proportional transaction costs. */
module Backtest {
  import opened Wrappers
  import opened Numbers
  import opened Market
  import opened Signals
  import opened Metrics

  /** `{"BUY": 1.0, "SELL": -1.0, "HOLD": 0.0}` */
  function Exposure(s: Signal): (x: real)
    ensures x == 1.0 <==> s == Buy
    ensures x == -1.0 <==> s == Sell
    ensures x == 0.0 <==> s == Hold
  {
    match s
    case Buy => 1.0
    case Sell => -1.0
    case Hold => 0.0
  }

  /** `.shift(1).fillna(fill)`: each value moves one period later; the first slot takes `fill`. */
  function Lag(xs: seq<real>, fill: real): (r: seq<real>)
    ensures |r| == |xs|
    ensures |xs| > 0 ==> r[0] == fill
    ensures forall i :: 0 < i < |xs| ==> r[i] == xs[i - 1]
  {
    if |xs| == 0 then [] else [fill] + xs[..|xs| - 1]
  }

  /** Every close that serves as the base of a percentage change is non-zero. */
  predicate PriorClosesNonZero(rows: seq<IndicatorRow>)
  {
    forall i :: 0 <= i < |rows| - 1 ==> rows[i].close != 0.0
  }

  /** `Close.reindex(ind.index).pct_change().fillna(0.0)` over the indicator
      rows: the first period has no earlier close in the window and earns 0. */
  function PriceReturns(rows: seq<IndicatorRow>): (r: seq<real>)
    requires PriorClosesNonZero(rows)
    ensures |r| == |rows|
    ensures |rows| > 0 ==> r[0] == 0.0
    ensures forall i {:trigger r[i]} :: 0 < i < |rows| ==> r[i] == rows[i].close / rows[i - 1].close - 1.0
  {
    seq(|rows|, i requires 0 <= i < |rows| && PriorClosesNonZero(rows) =>
      if i == 0 then 0.0 else rows[i].close / rows[i - 1].close - 1.0)
  }

  /** The cost rate of one unit of traded exposure: `cost_bps / 10000`. */
  function CostRate(costBps: int): real
  {
    costBps as real / 10000.0
  }

  /** `pos.diff().abs().fillna(0.0) * (cost_bps / 10000.0)`: a charge on every change of exposure. */
  function Costs(pos: seq<real>, costBps: int): (c: seq<real>)
    ensures |c| == |pos|
    ensures |pos| > 0 ==> c[0] == 0.0
    ensures forall i {:trigger c[i]} :: 0 < i < |pos| ==> c[i] == Abs(pos[i] - pos[i - 1]) * CostRate(costBps)
  {
    seq(|pos|, i requires 0 <= i < |pos| =>
      if i == 0 then 0.0 else Abs(pos[i] - pos[i - 1]) * CostRate(costBps))
  }

  /** With a non-negative cost, no period is ever credited for trading. */
  lemma CostsNonNegative(pos: seq<real>, costBps: int)
    requires costBps >= 0
    ensures forall i :: 0 <= i < |pos| ==> Costs(pos, costBps)[i] >= 0.0
  {
  }

  /** Holding the position costs nothing. */
  lemma CostZeroWhenUnchanged(pos: seq<real>, costBps: int, i: nat)
    requires 0 < i < |pos| && pos[i] == pos[i - 1]
    ensures Costs(pos, costBps)[i] == 0.0
  {
  }

  /** A full flip from long to short is charged twice the rate. */
  lemma FlipCostsTwice(pos: seq<real>, costBps: int, i: nat)
    requires 0 < i < |pos| && pos[i - 1] == 1.0 && pos[i] == -1.0
    ensures Costs(pos, costBps)[i] == 2.0 * CostRate(costBps)
  {
  }

  /** `pos * ret - tc` */
  function NetReturns(pos: seq<real>, ret: seq<real>, cost: seq<real>): (net: seq<real>)
    requires |pos| == |ret| == |cost|
    ensures |net| == |pos|
    ensures forall i {:trigger net[i]} :: 0 <= i < |pos| ==> net[i] == pos[i] * ret[i] - cost[i]
  {
    seq(|pos|, i requires 0 <= i < |pos| == |ret| == |cost| => pos[i] * ret[i] - cost[i])
  }

  /** One period's net return: the position held times the percentage move
      of the close, less the cost of moving into that position. */
  function PeriodNet(prevClose: real, close: real, prevPos: real, pos: real, rate: real): real
    requires prevClose != 0.0
  {
    pos * (close / prevClose - 1.0) - Abs(pos - prevPos) * rate
  }

  /** `strat_net = pos * ret - tc`: each period's position times its price
      return, less the cost of moving into that position. */
  function StrategyReturns(rows: seq<IndicatorRow>, pos: seq<real>, costBps: int): (net: seq<real>)
    requires |pos| == |rows|
    requires PriorClosesNonZero(rows)
    ensures |net| == |rows|
    ensures |rows| > 0 ==> net[0] == 0.0
    ensures forall i {:trigger net[i]} :: 0 < i < |rows| ==>
              net[i] == PeriodNet(rows[i - 1].close, rows[i].close, pos[i - 1], pos[i], CostRate(costBps))
  {
    var ret := PriceReturns(rows);
    var tc := Costs(pos, costBps);
    NetReturns(pos, ret, tc)
  }

  /** The dictionary returned by `backtest_ticker`; `metrics == None` is its empty `{}`. */
  datatype TickerResult = TickerResult(
    metrics: Option<Metrics>,
    dates: seq<Date>,
    netReturns: seq<real>,
    positions: seq<real>,
    equity: seq<real>)

  const EmptyTickerResult := TickerResult(None, [], [], [], [])

  /** The series of one simulated run, aligned with the indicator rows. */
  datatype Path = Path(dates: seq<Date>, positions: seq<real>, netReturns: seq<real>)

  /** `ind.apply(signal_from_row)`: every indicator row classified on its own. */
  function Classified(rows: seq<IndicatorRow>, th: Thresholds): (s: seq<Signal>)
    ensures |s| == |rows|
    ensures forall i :: 0 <= i < |rows| ==> s[i] == Classify(rows[i], th)
  {
    seq(|rows|, i requires 0 <= i < |rows| => Classify(rows[i], th))
  }

  /** `signals.replace({"BUY": 1.0, "SELL": -1.0, "HOLD": 0.0})` */
  function Exposures(signals: seq<Signal>): (x: seq<real>)
    ensures |x| == |signals|
    ensures forall i :: 0 <= i < |signals| ==> x[i] == Exposure(signals[i])
  {
    seq(|signals|, i requires 0 <= i < |signals| => Exposure(signals[i]))
  }

  /** The body of `backtest_ticker` after classification: exposure lagged by
      one period, percentage price returns, cost on every change of exposure,
      net return and compounded equity. */
  function Simulate(rows: seq<IndicatorRow>, exposure: seq<real>, costBps: int): (r: Path)
    requires |exposure| == |rows| > 0
    requires PriorClosesNonZero(rows)
    ensures |r.dates| == |r.netReturns| == |r.positions| == |rows|
    ensures forall i :: 0 <= i < |rows| ==> r.dates[i] == rows[i].date
    ensures r.positions[0] == 0.0 && r.netReturns[0] == 0.0
    ensures forall i {:trigger r.positions[i]} :: 0 < i < |rows| ==> r.positions[i] == exposure[i - 1]
    ensures forall i {:trigger r.netReturns[i]} :: 0 < i < |rows| ==>
              r.netReturns[i] == PeriodNet(rows[i - 1].close, rows[i].close, r.positions[i - 1], r.positions[i], CostRate(costBps))
  {
    var pos := Lag(exposure, 0.0);
    var net := StrategyReturns(rows, pos, costBps);
    var dates := seq(|rows|, i requires 0 <= i < |rows| => rows[i].date);
    Path(dates, pos, net)
  }

  /** `backtest_ticker` on the engine's indicator rows: no rows give the
      empty result; otherwise the position on each date is the exposure of the
      previous date's signal, never the same date's. */
  function BacktestRows(rows: seq<IndicatorRow>, th: Thresholds, costBps: int): (r: TickerResult)
    requires PriorClosesNonZero(rows)
    ensures r.metrics.None? <==> |rows| == 0
    ensures |rows| == 0 ==> r == EmptyTickerResult
    ensures |rows| > 0 ==>
              var p := Simulate(rows, Exposures(Classified(rows, th)), costBps);
              && r.dates == p.dates && r.positions == p.positions
              && r.netReturns == p.netReturns && r.equity == Equity(p.netReturns)
              && r.metrics == Some(Metrics(MaxDrawdown(r.equity), HitRatio(r.netReturns)))
    ensures |r.positions| == |rows|
    ensures |rows| > 0 ==> r.positions[0] == 0.0
    ensures forall i {:trigger r.positions[i]} :: 0 < i < |rows| ==>
              r.positions[i] == Exposure(Classify(rows[i - 1], th))
    ensures forall i :: 0 <= i < |rows| ==>
              r.positions[i] == -1.0 || r.positions[i] == 0.0 || r.positions[i] == 1.0
  {
    if |rows| == 0 then EmptyTickerResult
    else
      var p := Simulate(rows, Exposures(Classified(rows, th)), costBps);
      TickerResult(Some(SummaryMetrics(p.netReturns)), p.dates, p.netReturns, p.positions, Equity(p.netReturns))
  }

  /** The keyword default of `cost_bps` in `backtest_ticker` and `backtest_portfolio`. */
  const DefaultCostBps := 5

  /** `backtest_ticker(df, params, cost_bps)`: run the indicator engine, then backtest its rows. */
  function BacktestTicker(df: PriceSeries, params: Params, costBps: int, engine: Engine): (r: TickerResult)
    requires PriorClosesNonZero(engine(df, params.indicator))
    ensures var rows := engine(df, params.indicator);
            && (r.metrics.None? <==> |rows| == 0)
            && |r.dates| == |r.positions| == |r.netReturns| == |rows|
            && (forall i :: 0 <= i < |rows| ==> r.dates[i] == rows[i].date)
            && forall i :: 0 < i < |rows| ==> r.positions[i] == Exposure(Classify(rows[i - 1], params.thresholds))
  {
    BacktestRows(engine(df, params.indicator), params.thresholds, costBps)
  }

  /** With an engine that keeps the input's bars, every period's net return
      is the one earned between two bars of the input series, in order, dated
      on the result's previous and current dates, at the positions the
      result reports. */
  lemma BacktestTickerReadsBars(df: PriceSeries, params: Params, costBps: int, engine: Engine, i: nat)
    requires PriorClosesNonZero(engine(df, params.indicator))
    requires KeepsBars(engine(df, params.indicator), df)
    requires 0 < i < |engine(df, params.indicator)|
    ensures var r := BacktestTicker(df, params, costBps, engine);
            exists j, k :: 0 <= j < k < |df|
              && df[j].date == r.dates[i - 1] && df[k].date == r.dates[i] && df[j].close != 0.0
              && r.netReturns[i] == PeriodNet(df[j].close, df[k].close, r.positions[i - 1], r.positions[i], CostRate(costBps))
  {
    var rows := engine(df, params.indicator);
    RowPairIsBars(rows, df, i);
    var p := Simulate(rows, Exposures(Classified(rows, params.thresholds)), costBps);
    assert BacktestTicker(df, params, costBps, engine).netReturns[i] == p.netReturns[i];
  }

  /** Cutting a series short and then lagging it is the same as lagging first. */
  lemma LagOfPrefix(xs: seq<real>, fill: real, k: nat)
    requires k <= |xs|
    ensures Lag(xs[..k], fill) == Lag(xs, fill)[..k]
  {
  }

  /** A period's price return reads no close after that period. */
  lemma PriceReturnsOfPrefix(rows: seq<IndicatorRow>, k: nat)
    requires PriorClosesNonZero(rows)
    requires k <= |rows|
    ensures PriorClosesNonZero(rows[..k])
    ensures PriceReturns(rows[..k]) == PriceReturns(rows)[..k]
  {
    var short, full := PriceReturns(rows[..k]), PriceReturns(rows);
    forall i | 0 < i < k
      ensures short[i] == full[i]
    {
      assert rows[..k][i] == rows[i] && rows[..k][i - 1] == rows[i - 1];
    }
  }

  /** A period's cost reads no position after that period. */
  lemma CostsOfPrefix(pos: seq<real>, costBps: int, k: nat)
    requires k <= |pos|
    ensures Costs(pos[..k], costBps) == Costs(pos, costBps)[..k]
  {
    var short, full := Costs(pos[..k], costBps), Costs(pos, costBps);
    forall i | 0 < i < k
      ensures short[i] == full[i]
    {
      assert pos[..k][i] == pos[i] && pos[..k][i - 1] == pos[i - 1];
    }
  }

  /** The net return of a period depends on nothing after that period. */
  lemma StrategyReturnsOfPrefix(rows: seq<IndicatorRow>, pos: seq<real>, costBps: int, k: nat)
    requires |pos| == |rows| && PriorClosesNonZero(rows)
    requires k <= |rows|
    ensures PriorClosesNonZero(rows[..k])
    ensures StrategyReturns(rows[..k], pos[..k], costBps) == StrategyReturns(rows, pos, costBps)[..k]
  {
    var short, full := StrategyReturns(rows[..k], pos[..k], costBps), StrategyReturns(rows, pos, costBps);
    forall i | 0 <= i < k
      ensures short[i] == full[i]
    {
      if i > 0 {
        assert rows[..k][i] == rows[i] && rows[..k][i - 1] == rows[i - 1];
        assert pos[..k][i] == pos[i] && pos[..k][i - 1] == pos[i - 1];
      }
    }
  }

  /** Simulating the first `k` periods gives the first `k` periods of the full simulation. */
  lemma SimulateOfPrefix(rows: seq<IndicatorRow>, x: seq<real>, costBps: int, k: nat)
    requires |x| == |rows| && PriorClosesNonZero(rows)
    requires 0 < k <= |rows|
    ensures PriorClosesNonZero(rows[..k])
    ensures Simulate(rows[..k], x[..k], costBps).positions == Simulate(rows, x, costBps).positions[..k]
    ensures Simulate(rows[..k], x[..k], costBps).netReturns == Simulate(rows, x, costBps).netReturns[..k]
  {
    LagOfPrefix(x, 0.0, k);
    var pos := Lag(x, 0.0);
    assert Lag(x[..k], 0.0) == pos[..k];
    StrategyReturnsOfPrefix(rows, pos, costBps, k);
  }

  /** No look-ahead: cutting off the future leaves every earlier position,
      return and equity point unchanged. */
  lemma BacktestIsCausal(rows: seq<IndicatorRow>, th: Thresholds, costBps: int, k: nat)
    requires PriorClosesNonZero(rows)
    requires k <= |rows|
    ensures PriorClosesNonZero(rows[..k])
    ensures BacktestRows(rows[..k], th, costBps).positions == BacktestRows(rows, th, costBps).positions[..k]
    ensures BacktestRows(rows[..k], th, costBps).netReturns == BacktestRows(rows, th, costBps).netReturns[..k]
    ensures BacktestRows(rows[..k], th, costBps).equity == BacktestRows(rows, th, costBps).equity[..k]
  {
    if k > 0 {
      var x := Exposures(Classified(rows, th));
      assert Exposures(Classified(rows[..k], th)) == x[..k];
      SimulateOfPrefix(rows, x, costBps, k);
      var full := Simulate(rows, x, costBps);
      var short := Simulate(rows[..k], x[..k], costBps);
      var r, rk := BacktestRows(rows, th, costBps), BacktestRows(rows[..k], th, costBps);
      assert r.positions == full.positions && r.netReturns == full.netReturns && r.equity == Equity(full.netReturns);
      assert rk.positions == short.positions && rk.netReturns == short.netReturns && rk.equity == Equity(short.netReturns);
      EquityOfPrefix(full.netReturns, k);
    }
  }
}

=== FILE: cli.dfy ===
/** `parse_weights` of cli.py: a weight string such as "A=0.3, B=0.2" read
    into a dictionary from ticker to weight, rescaled to total one when it
    is off by more than a millionth, with every listed ticker present. */
module Cli {
  import opened Wrappers
  import opened Numbers
  import opened Dicts
  import opened Text
  import opened Market
  import opened Weights

  /** Python's `float(text)`: `None` stands for the `ValueError` it raises. */
  type FloatParser = string -> Option<real>

  /** The exceptions `parse_weights` lets escape. */
  datatype ParseError =
    | MalformedPair(piece: string)   // `t, val = p.split("=")` without exactly one "="
    | InvalidNumber(text: string)    // `float(val)` rejects the text
    | ZeroTotal                      // `v / tot` with `tot == 0`

  /** `1e-6`: how far from one a total may be before it is rescaled. */
  const Tolerance: real := 0.000001

  /** `[p.strip() for p in parts if p.strip()]`, kept in order. */
  function StrippedNonBlank(parts: seq<string>): (ps: seq<string>)
    ensures |ps| <= |parts|
    ensures forall i :: 0 <= i < |ps| ==> ps[i] != []
    decreases |parts|
  {
    if |parts| == 0 then []
    else
      var p := Strip(parts[0]);
      var rest := StrippedNonBlank(parts[1..]);
      if p == [] then rest else [p] + rest
  }

  /** A piece is kept exactly when it is the non-blank strip of some part. */
  lemma {:induction false} StrippedNonBlankMembers(parts: seq<string>, x: string)
    ensures x in StrippedNonBlank(parts) <==> x != [] && exists j :: 0 <= j < |parts| && Strip(parts[j]) == x
    decreases |parts|
  {
    if |parts| > 0 {
      var tail := parts[1..];
      StrippedNonBlankMembers(tail, x);
      if exists j :: 0 <= j < |parts| && Strip(parts[j]) == x {
        var j :| 0 <= j < |parts| && Strip(parts[j]) == x;
        if j > 0 {
          assert tail[j - 1] == parts[j];
        }
      }
      if exists j :: 0 <= j < |tail| && Strip(tail[j]) == x {
        var j :| 0 <= j < |tail| && Strip(tail[j]) == x;
        assert tail[j] == parts[j + 1];
      }
    }
  }

  /** Filtering distributes over concatenation: pieces keep the order of their parts. */
  lemma {:induction false} StrippedNonBlankAppend(a: seq<string>, b: seq<string>)
    ensures StrippedNonBlank(a + b) == StrippedNonBlank(a) + StrippedNonBlank(b)
    decreases |a|
  {
    if |a| == 0 {
      assert a + b == b;
    } else {
      assert (a + b)[0] == a[0];
      assert (a + b)[1..] == a[1..] + b;
      StrippedNonBlankAppend(a[1..], b);
    }
  }

  /** A single part gives its strip, or nothing when that is blank. */
  lemma StrippedNonBlankOne(p: string)
    ensures StrippedNonBlank([p]) == if Strip(p) == [] then [] else [Strip(p)]
  {
    assert [p][1..] == [];
  }

  /** Stripping never adds a character. */
  lemma StripIsInside(s: string, c: char)
    requires c !in s
    ensures c !in Strip(s)
  {
    var i := LeadingSpace(s);
    var a := s[i..];
    var r := a[..|a| - TrailingSpace(a)];
    assert Strip(s) == r;
    forall k | 0 <= k < |r|
      ensures r[k] != c
    {
      assert r[k] == s[i + k];
    }
  }

  /** The pieces of the weight string: split on commas, stripped, blanks
      dropped. No piece is blank and none contains a comma. */
  function Pieces(s: string): (ps: seq<string>)
    ensures ps == StrippedNonBlank(Split(s, ','))
    ensures forall i :: 0 <= i < |ps| ==> ps[i] != [] && ',' !in ps[i]
  {
    var parts := Split(s, ',');
    var ps := StrippedNonBlank(parts);
    assert forall i :: 0 <= i < |ps| ==> ',' !in ps[i] by {
      forall i | 0 <= i < |ps|
        ensures ',' !in ps[i]
      {
        StrippedNonBlankMembers(parts, ps[i]);
        var j :| 0 <= j < |parts| && Strip(parts[j]) == ps[i];
        StripIsInside(parts[j], ',');
      }
    }
    ps
  }

  /** `t, val = p.split("="); (t.strip(), float(val))` */
  function ParsePair(p: string, toFloat: FloatParser): (r: Result<(Ticker, real), ParseError>)
    ensures r.Failure? ==> r.error.MalformedPair? || r.error.InvalidNumber?
  {
    var parts := Split(p, '=');
    if |parts| != 2 then Failure(MalformedPair(p))
    else
      match toFloat(parts[1])
      case None => Failure(InvalidNumber(parts[1]))
      case Some(v) => Success((Strip(parts[0]), v))
  }

  /** A piece is malformed exactly when it does not hold exactly one "=";
      otherwise its ticker is the stripped text before the "=" and its
      weight is the number after it, or the text after it is reported as
      not a number. */
  lemma ParsePairSpec(p: string, toFloat: FloatParser)
    ensures ParsePair(p, toFloat) == Failure(MalformedPair(p)) <==> Occurrences(p, '=') != 1
    ensures Occurrences(p, '=') == 1 ==>
              '=' in p &&
              var k := FirstIndex(p, '=');
              ParsePair(p, toFloat) ==
                match toFloat(p[k + 1..])
                case None => Failure(InvalidNumber(p[k + 1..]))
                case Some(v) => Success((Strip(p[..k]), v))
  {
    if Occurrences(p, '=') == 1 {
      SplitInTwo(p, '=');
    }
  }

  /** The outcome of parsing one piece. */
  type Parsed = Result<(Ticker, real), ParseError>

  /** The body of `for p in pairs: t, val = p.split("="); w[t.strip()] = float(val)`
      on the pieces' outcomes in order: the first failure aborts the loop;
      otherwise each piece assigns its ticker, a later one overwriting an
      earlier one. */
  function Assign(rs: seq<Parsed>): (r: Result<Dict<Ticker, real>, ParseError>)
    ensures r.Success? ==> UniqueKeys(r.value) && |r.value| <= |rs|
    decreases |rs|
  {
    if |rs| == 0 then Success([])
    else
      match Assign(rs[..|rs| - 1])
      case Failure(e) => Failure(e)
      case Success(w) =>
        match rs[|rs| - 1]
        case Failure(e) => Failure(e)
        case Success((t, v)) => Success(Put(w, t, v))
  }

  /** The loop succeeds exactly when every piece parses; otherwise it raises
      the error of the first piece that fails. */
  lemma {:induction false} AssignOutcome(rs: seq<Parsed>)
    ensures Assign(rs).Success? <==> forall i :: 0 <= i < |rs| ==> rs[i].Success?
    ensures Assign(rs).Failure? ==>
              exists i :: 0 <= i < |rs| && rs[i] == Failure(Assign(rs).error)
                          && forall j :: 0 <= j < i ==> rs[j].Success?
    decreases |rs|
  {
    if |rs| > 0 {
      var n := |rs| - 1;
      var init := rs[..n];
      AssignOutcome(init);
      assert forall j :: 0 <= j < n ==> init[j] == rs[j];
      match Assign(init)
      case Failure(e) =>
        assert Assign(rs) == Failure(e);
        var i :| 0 <= i < n && init[i] == Failure(e) && forall j :: 0 <= j < i ==> init[j].Success?;
        assert rs[i] == Failure(e);
      case Success(w) =>
        if rs[n].Failure? {
          assert rs[n] == Failure(Assign(rs).error);
        }
    }
  }

  /** A piece among `rs` names `t` exactly when one before the last does or
      the last one does. */
  lemma NamedSnoc(rs: seq<Parsed>, t: Ticker)
    requires |rs| > 0
    ensures var n := |rs| - 1;
            (exists i :: 0 <= i < |rs| && rs[i].Success? && rs[i].value.0 == t) <==>
            (exists i :: 0 <= i < n && rs[..n][i].Success? && rs[..n][i].value.0 == t)
            || (rs[n].Success? && rs[n].value.0 == t)
  {
    var n := |rs| - 1;
    if exists i :: 0 <= i < |rs| && rs[i].Success? && rs[i].value.0 == t {
      var i :| 0 <= i < |rs| && rs[i].Success? && rs[i].value.0 == t;
      if i < n {
        assert rs[..n][i] == rs[i];
      }
    }
    if exists i :: 0 <= i < n && rs[..n][i].Success? && rs[..n][i].value.0 == t {
      var i :| 0 <= i < n && rs[..n][i].Success? && rs[..n][i].value.0 == t;
      assert rs[..n][i] == rs[i];
    }
  }

  /** The tickers assigned are exactly those the pieces name. */
  lemma {:induction false} AssignKeys(rs: seq<Parsed>, t: Ticker)
    requires Assign(rs).Success?
    ensures HasKey(Assign(rs).value, t) <==> exists i :: 0 <= i < |rs| && rs[i].Success? && rs[i].value.0 == t
    decreases |rs|
  {
    if |rs| > 0 {
      var n := |rs| - 1;
      var init := rs[..n];
      assert Assign(init).Success? && rs[n].Success?;
      var w := Assign(init).value;
      var (u, v) := rs[n].value;
      assert HasKey(Assign(rs).value, t) <==> HasKey(w, t) || u == t by {
        assert Assign(rs).value == Put(w, u, v);
      }
      AssignKeys(init, t);
      NamedSnoc(rs, t);
    }
  }

  /** A later piece naming the same ticker overrides an earlier one: each
      ticker holds the value of the last piece that names it. */
  lemma {:induction false} AssignLastWins(rs: seq<Parsed>, i: nat)
    requires Assign(rs).Success?
    requires i < |rs| && rs[i].Success?
    requires forall j :: i < j < |rs| && rs[j].Success? ==> rs[j].value.0 != rs[i].value.0
    ensures Get(Assign(rs).value, rs[i].value.0) == Some(rs[i].value.1)
    decreases |rs|
  {
    var n := |rs| - 1;
    var init := rs[..n];
    assert Assign(init).Success? && rs[n].Success?;
    var w := Assign(init).value;
    var (u, v) := rs[n].value;
    assert Assign(rs).value == Put(w, u, v);
    if i < n {
      assert init[i] == rs[i];
      assert forall j :: i < j < n ==> init[j] == rs[j];
      AssignLastWins(init, i);
      assert u != rs[i].value.0;
    }
  }

  /** `[p.split("=") ... float(val)]` for every piece, in order. */
  function ParseAll(ps: seq<string>, toFloat: FloatParser): (rs: seq<Parsed>)
    ensures |rs| == |ps|
    ensures forall i :: 0 <= i < |ps| ==> rs[i] == ParsePair(ps[i], toFloat)
  {
    seq(|ps|, i requires 0 <= i < |ps| => ParsePair(ps[i], toFloat))
  }

  /** `if abs(tot - 1.0) > 1e-6: w = {k: v / tot for k, v in w.items()}`.
      The comprehension over an empty dictionary divides nothing, so only a
      non-empty dictionary whose weights total zero raises. */
  function Normalize(w: Dict<Ticker, real>): (r: Result<Dict<Ticker, real>, ParseError>)
    requires UniqueKeys(w)
    ensures r.Failure? <==> |w| > 0 && Sum(w) == 0.0
    ensures r.Failure? ==> r.error == ZeroTotal
    ensures r.Success? ==> UniqueKeys(r.value) && KeysOf(r.value) == KeysOf(w)
    ensures Abs(Sum(w) - 1.0) <= Tolerance ==> r == Success(w)
    ensures r.Success? && Abs(Sum(w) - 1.0) > Tolerance ==>
              forall i :: 0 <= i < |w| ==> r.value[i].1 == w[i].1 / Sum(w)
    ensures r.Success? && |w| > 0 ==> Abs(Sum(r.value) - 1.0) <= Tolerance
  {
    var tot := Sum(w);
    if Abs(tot - 1.0) > Tolerance then
      if |w| == 0 then Success(w)
      else if tot == 0.0 then Failure(ZeroTotal)
      else
        var s := Scale(w, 1.0 / tot);
        SumOfScale(w, 1.0 / tot);
        assert forall i :: 0 <= i < |w| ==> s[i].1 == w[i].1 / tot;
        Success(s)
    else Success(w)
  }

  /** `for t in tickers: w.setdefault(t, 0.0)` */
  function FillMissing(w: Dict<Ticker, real>, tickers: seq<Ticker>): (r: Dict<Ticker, real>)
    requires UniqueKeys(w)
    ensures UniqueKeys(r)
    ensures |w| <= |r| && r[..|w|] == w
    ensures forall t :: HasKey(r, t) <==> HasKey(w, t) || t in tickers
    ensures forall t :: HasKey(w, t) ==> Get(r, t) == Get(w, t)
    ensures forall t :: t in tickers && !HasKey(w, t) ==> Get(r, t) == Some(0.0)
    ensures Sum(r) == Sum(w)
    decreases |tickers|
  {
    if |tickers| == 0 then w
    else
      var t := tickers[0];
      var w' := SetDefault(w, t, 0.0);
      assert Sum(w') == Sum(w) by {
        if !HasKey(w, t) {
          SumAppend(w, t, 0.0);
        }
      }
      assert forall u :: u in tickers <==> u == t || u in tickers[1..];
      var r := FillMissing(w', tickers[1..]);
      assert r[..|w|] == r[..|w'|][..|w|];
      r
  }

  /** The rest of `parse_weights` once the pieces have been read into `w`:
      rescale, then give every listed ticker without an entry weight zero.
      It fails only when there is something to divide and the total is
      zero; the parsed tickers keep their entries and the listed ones are
      added with weight zero. */
  function Complete(w: Dict<Ticker, real>, tickers: seq<Ticker>): (r: Result<Dict<Ticker, real>, ParseError>)
    requires UniqueKeys(w)
    ensures r.Failure? <==> |w| > 0 && Sum(w) == 0.0
    ensures r.Failure? ==> r.error == ZeroTotal
    ensures r.Success? ==> UniqueKeys(r.value)
    ensures r.Success? ==> forall t :: HasKey(r.value, t) <==> HasKey(w, t) || t in tickers
    ensures r.Success? ==> forall t :: t in tickers && !HasKey(w, t) ==> Get(r.value, t) == Some(0.0)
  {
    match Normalize(w)
    case Failure(e) => Failure(e)
    case Success(n) =>
      assert forall t :: HasKey(n, t) <==> HasKey(w, t) by {
        forall t
          ensures HasKey(n, t) <==> HasKey(w, t)
        {
          KeysAgree(n, w, t);
        }
      }
      Success(FillMissing(n, tickers))
  }

  /** The weights of a non-empty reading end up totalling one: exactly when
      they had to be rescaled, within the tolerance when they were left
      alone. The zeros added for listed tickers change no total. */
  lemma CompleteTotalsOne(w: Dict<Ticker, real>, tickers: seq<Ticker>)
    requires UniqueKeys(w) && |w| > 0 && Complete(w, tickers).Success?
    ensures Abs(Sum(Complete(w, tickers).value) - 1.0) <= Tolerance
    ensures Abs(Sum(w) - 1.0) > Tolerance ==> Sum(Complete(w, tickers).value) == 1.0
  {
    var n := Normalize(w).value;
    assert Sum(Complete(w, tickers).value) == Sum(n);
    if Abs(Sum(w) - 1.0) > Tolerance {
      SumOfScale(w, 1.0 / Sum(w));
    }
  }

  /** A total more than the tolerance away from one divides every parsed
      weight by it; a total within the tolerance leaves every parsed weight
      as read. */
  lemma CompleteRescales(w: Dict<Ticker, real>, tickers: seq<Ticker>, i: nat)
    requires UniqueKeys(w) && Complete(w, tickers).Success? && i < |w|
    ensures Abs(Sum(w) - 1.0) > Tolerance ==> Get(Complete(w, tickers).value, w[i].0) == Some(w[i].1 / Sum(w))
    ensures Abs(Sum(w) - 1.0) <= Tolerance ==> Get(Complete(w, tickers).value, w[i].0) == Some(w[i].1)
  {
    var n := Normalize(w).value;
    assert n[i].0 == w[i].0 by {
      assert KeysOf(n)[i] == KeysOf(w)[i];
    }
    assert HasKey(n, w[i].0);
    assert Get(Complete(w, tickers).value, w[i].0) == Get(n, w[i].0);
  }

  /** `parse_weights(s, tickers)`: no string, or an empty one, gives equal
      weights; otherwise the pieces are read in order, the first bad piece
      raising its error, and the reading is completed. */
  function ParseWeights(s: Option<string>, tickers: seq<Ticker>, toFloat: FloatParser): (r: Result<Dict<Ticker, real>, ParseError>)
    ensures s.None? || s.value == [] ==> r == Success(EqualWeights(tickers))
    ensures s.Some? && s.value != [] ==>
              var read := Assign(ParseAll(Pieces(s.value), toFloat));
              && (read.Failure? ==> r == Failure(read.error))
              && (read.Success? ==> r == Complete(read.value, tickers))
    ensures r.Success? ==> UniqueKeys(r.value) && forall t :: t in tickers ==> HasKey(r.value, t)
  {
    if s.None? || s.value == [] then Success(EqualWeights(tickers))
    else
      match Assign(ParseAll(Pieces(s.value), toFloat))
      case Failure(e) => Failure(e)
      case Success(w) => Complete(w, tickers)
  }

  /** Only blank parts: nothing survives the filter. */
  lemma {:induction false} StrippedNonBlankOfBlanks(parts: seq<string>)
    requires forall j :: 0 <= j < |parts| ==> AllSpace(parts[j])
    ensures StrippedNonBlank(parts) == []
    decreases |parts|
  {
    if |parts| > 0 {
      StripEmptyIffBlank(parts[0]);
      StrippedNonBlankOfBlanks(parts[1..]);
    }
  }

  /** A non-empty weight string made only of commas and whitespace is not
      the empty string of the equal-weights branch: it has no pieces, reads
      as no weights at all, and every ticker gets weight 0. */
  lemma BlankWeightStringGivesZeros(s: string, tickers: seq<Ticker>, toFloat: FloatParser)
    requires s != []
    requires forall i :: 0 <= i < |s| ==> s[i] == ',' || IsSpace(s[i])
    ensures Pieces(s) == []
    ensures ParseWeights(Some(s), tickers, toFloat).Success?
    ensures forall t :: t in tickers ==> Get(ParseWeights(Some(s), tickers, toFloat).value, t) == Some(0.0)
  {
    var parts := Split(s, ',');
    forall j | 0 <= j < |parts|
      ensures AllSpace(parts[j])
    {
      forall k | 0 <= k < |parts[j]|
        ensures IsSpace(parts[j][k])
      {
        JoinKeepsChars(parts, [','], j, k);
      }
    }
    StrippedNonBlankOfBlanks(parts);
    assert ParseAll([], toFloat) == [];
  }

  /** Two dictionaries with the same key list have the same keys. */
  lemma KeysAgree(a: Dict<Ticker, real>, b: Dict<Ticker, real>, t: Ticker)
    requires KeysOf(a) == KeysOf(b)
    ensures HasKey(a, t) <==> HasKey(b, t)
  {
    if HasKey(a, t) {
      var i :| 0 <= i < |a| && a[i].0 == t;
      assert KeysOf(a)[i] == t;
    }
    if HasKey(b, t) {
      var i :| 0 <= i < |b| && b[i].0 == t;
      assert KeysOf(b)[i] == t;
    }
  }

  /** Weights {A: 2, B: 2} total 4 and are rescaled to {A: 0.5, B: 0.5}. */
  lemma NormalizeEvenSplit()
    ensures Normalize([("A", 2.0), ("B", 2.0)]) == Success([("A", 0.5), ("B", 0.5)])
  {
    var w := [("A", 2.0), ("B", 2.0)];
    assert ValuesOf(w) == [2.0, 2.0];
    assert SumOf([2.0, 2.0]) == SumOf([2.0]) + 2.0;
    assert SumOf([2.0]) == SumOf([]) + 2.0;
    assert Sum(w) == 4.0;
    assert UniqueKeys(w);
    var s := Scale(w, 1.0 / 4.0);
    assert s[0] == ("A", 0.5) && s[1] == ("B", 0.5);
    assert s == [("A", 0.5), ("B", 0.5)];
  }
}

=== FILE: dicts.dfy ===
/** Python dictionaries: insertion-ordered maps. A `Dict` is the list of its
    entries in insertion order; a well-formed one has each key at most once. */
module Dicts {
  import opened Wrappers
  import opened Numbers

  type Dict<K(==,!new), V> = seq<(K, V)>

  /** Keys are distinct, as in every Python dict. */
  predicate UniqueKeys<K(==,!new), V>(d: Dict<K, V>)
  {
    forall i, j :: 0 <= i < j < |d| ==> d[i].0 != d[j].0
  }

  /** `k in d` */
  predicate HasKey<K(==,!new), V>(d: Dict<K, V>, k: K)
  {
    exists i :: 0 <= i < |d| && d[i].0 == k
  }

  /** `list(d.keys())` */
  function KeysOf<K(==,!new), V>(d: Dict<K, V>): seq<K>
  {
    seq(|d|, i requires 0 <= i < |d| => d[i].0)
  }

  /** `list(d.values())` */
  function ValuesOf<K(==,!new), V>(d: Dict<K, V>): seq<V>
  {
    seq(|d|, i requires 0 <= i < |d| => d[i].1)
  }

  /** Position of `k` in `d`: the first entry carrying that key. */
  function KeyIndex<K(==,!new), V>(d: Dict<K, V>, k: K): (i: nat)
    requires HasKey(d, k)
    ensures i < |d| && d[i].0 == k
    ensures forall j :: 0 <= j < i ==> d[j].0 != k
    decreases |d|
  {
    if d[0].0 == k then 0
    else
      assert HasKey(d[1..], k) by {
        var i :| 0 <= i < |d| && d[i].0 == k;
        assert d[1..][i - 1] == d[i];
      }
      1 + KeyIndex(d[1..], k)
  }

  /** `d.get(k)`: the value stored under `k`, if any. */
  function Get<K(==,!new), V>(d: Dict<K, V>, k: K): (r: Option<V>)
    ensures r.None? <==> !HasKey(d, k)
    ensures UniqueKeys(d) ==> forall i :: 0 <= i < |d| && d[i].0 == k ==> r == Some(d[i].1)
  {
    if HasKey(d, k) then Some(d[KeyIndex(d, k)].1) else None
  }

  /** `d[k] = v`: an existing key keeps its position and takes the new value;
      a new key is appended at the end. */
  function Put<K(==,!new), V>(d: Dict<K, V>, k: K, v: V): (r: Dict<K, V>)
    ensures Get(r, k) == Some(v)
    ensures forall k' :: k' != k ==> Get(r, k') == Get(d, k')
    ensures forall k' :: HasKey(r, k') <==> HasKey(d, k') || k' == k
    ensures !HasKey(d, k) ==> r == d + [(k, v)]
    ensures HasKey(d, k) ==> r == d[KeyIndex(d, k) := (k, v)]
    ensures UniqueKeys(d) ==> UniqueKeys(r)
  {
    if HasKey(d, k) then
      var i := KeyIndex(d, k);
      var r := d[i := (k, v)];
      assert r[i].0 == k;
      assert forall l :: 0 <= l < |d| ==> r[l].0 == d[l].0;
      assert KeyIndex(r, k) == i;
      forall k' | k' != k
        ensures Get(r, k') == Get(d, k')
      {
        assert HasKey(r, k') ==> HasKey(d, k') by {
          if HasKey(r, k') {
            var j := KeyIndex(r, k');
            assert d[j].0 == k';
          }
        }
        assert HasKey(d, k') ==> HasKey(r, k') by {
          if HasKey(d, k') {
            var j := KeyIndex(d, k');
            assert r[j].0 == k';
          }
        }
        if HasKey(d, k') {
          assert KeyIndex(r, k') == KeyIndex(d, k');
        }
      }
      r
    else
      var r := d + [(k, v)];
      assert r[|d|].0 == k;
      assert forall l :: 0 <= l < |d| ==> r[l] == d[l];
      assert KeyIndex(r, k) == |d|;
      forall k' | k' != k
        ensures Get(r, k') == Get(d, k')
        ensures HasKey(r, k') <==> HasKey(d, k')
      {
        if HasKey(r, k') {
          var j := KeyIndex(r, k');
          assert d[j].0 == k';
        }
        if HasKey(d, k') {
          var j := KeyIndex(d, k');
          assert r[j].0 == k';
          assert KeyIndex(r, k') == j;
        }
      }
      r
  }

  /** `sum(d.values())` */
  function Sum<K(==,!new)>(d: Dict<K, real>): real
  {
    SumOf(ValuesOf(d))
  }

  /** Appending an entry adds its value to the sum. */
  lemma SumAppend<K(!new)>(d: Dict<K, real>, k: K, v: real)
    ensures Sum(d + [(k, v)]) == Sum(d) + v
  {
    assert ValuesOf(d + [(k, v)]) == ValuesOf(d) + [v];
    assert (ValuesOf(d) + [v])[..|d|] == ValuesOf(d);
  }

  /** `d.setdefault(k, v)`: a key already present keeps its value and place;
      an absent key is appended with `v`. */
  function SetDefault<K(==,!new), V>(d: Dict<K, V>, k: K, v: V): (r: Dict<K, V>)
    ensures HasKey(d, k) ==> r == d
    ensures !HasKey(d, k) ==> r == d + [(k, v)] && Get(r, k) == Some(v)
    ensures forall k' :: k' != k ==> Get(r, k') == Get(d, k')
    ensures forall k' :: HasKey(r, k') <==> HasKey(d, k') || k' == k
    ensures UniqueKeys(d) ==> UniqueKeys(r)
  {
    if HasKey(d, k) then d else Put(d, k, v)
  }
}

=== FILE: market.dfy ===
/** Names shared by every part of the toolkit: ticker symbols and trading dates. */
module Market {
  /** A ticker symbol such as "ASML.AS". */
  type Ticker = string

  /** Trading dates, as day numbers. */
  type Date = int
}

=== FILE: metrics.dfy ===
/** The summary metrics of backtest.py that need no irrational arithmetic:
    the equity curve, maximum drawdown and hit ratio. A metric pandas reports
    as NaN is `None`. */
module Metrics {
  import opened Wrappers
  import opened Numbers

  /** `(1 + returns).cumprod()`: the growth of one unit compounded period by period. */
  function Equity(rets: seq<real>): (e: seq<real>)
    ensures |e| == |rets|
    ensures |rets| > 0 ==> e[0] == 1.0 + rets[0]
    ensures forall i {:trigger e[i], rets[i]} :: 0 < i < |rets| ==> e[i] == e[i - 1] * (1.0 + rets[i])
    decreases |rets|
  {
    if |rets| == 0 then []
    else
      var prev := Equity(rets[..|rets| - 1]);
      var last := if |prev| == 0 then 1.0 else prev[|prev| - 1];
      prev + [last * (1.0 + rets[|rets| - 1])]
  }

  /** Total growth factor of a return series: the product of all (1 + r). */
  function Growth(rets: seq<real>): real
    decreases |rets|
  {
    if |rets| == 0 then 1.0 else (1.0 + rets[0]) * Growth(rets[1..])
  }

  lemma {:induction false} GrowthAppend(rets: seq<real>, r: real)
    ensures Growth(rets + [r]) == Growth(rets) * (1.0 + r)
    decreases |rets|
  {
    if |rets| > 0 {
      assert (rets + [r])[1..] == rets[1..] + [r];
      GrowthAppend(rets[1..], r);
    } else {
      assert (rets + [r])[1..] == [];
    }
  }

  /** The compounding step of the equity curve, as a fact about one point. */
  lemma EquityRecurrence(rets: seq<real>, i: nat)
    requires 0 < i < |rets|
    ensures Equity(rets)[i] == Equity(rets)[i - 1] * (1.0 + rets[i])
  {
  }

  /** The last point of the equity curve is the total growth of the returns. */
  lemma {:induction false} EquityLast(rets: seq<real>)
    requires |rets| > 0
    ensures Equity(rets)[|rets| - 1] == Growth(rets)
    decreases |rets|
  {
    var n := |rets| - 1;
    var init := rets[..n];
    assert Growth(rets) == Growth(init) * (1.0 + rets[n]) by {
      GrowthAppend(init, rets[n]);
      assert init + [rets[n]] == rets;
    }
    if n == 0 {
      assert Growth(init) == 1.0;
    } else {
      assert Equity(rets)[n - 1] == Growth(init) by {
        EquityLast(init);
        EquityOfPrefix(rets, n);
      }
      EquityRecurrence(rets, n);
      Chain(Equity(rets)[n], Equity(rets)[n - 1], Growth(rets), Growth(init), 1.0 + rets[n]);
    }
  }

  /** Each point of the equity curve is the total growth of the returns up to it. */
  lemma EquityIsGrowth(rets: seq<real>, i: nat)
    requires i < |rets|
    ensures Equity(rets)[i] == Growth(rets[..i + 1])
  {
    EquityLast(rets[..i + 1]);
    EquityOfPrefix(rets, i + 1);
  }

  /** The equity curve of the first `k` returns is the first `k` points of the whole curve. */
  lemma {:induction false} EquityOfPrefix(rets: seq<real>, k: nat)
    requires k <= |rets|
    ensures Equity(rets[..k]) == Equity(rets)[..k]
    decreases |rets|
  {
    if k < |rets| {
      var init := rets[..|rets| - 1];
      EquityOfPrefix(init, k);
      assert init[..k] == rets[..k];
    } else {
      assert rets[..k] == rets;
    }
  }

  /** `equity / equity.cummax() - 1` at index `i`: the fall from the running peak. */
  function DrawdownAt(e: seq<real>, i: nat): (dd: real)
    requires i < |e| && e[0] > 0.0
    ensures dd <= 0.0
    ensures dd == 0.0 <==> e[i] == MaxOf(e[..i + 1])
  {
    var peak := MaxOf(e[..i + 1]);
    assert e[..i + 1][0] == e[0] && e[..i + 1][i] == e[i];
    RatioAtMostOne(e[i], peak);
    e[i] / peak - 1.0
  }

  lemma RatioAtMostOne(x: real, m: real)
    requires 0.0 < m && x <= m
    ensures x / m <= 1.0
    ensures x / m == 1.0 <==> x == m
  {
    assert x / m * m == x;
  }

  /** The drawdown series `dd`. */
  function Drawdowns(e: seq<real>): (dds: seq<real>)
    requires e == [] || e[0] > 0.0
    ensures |dds| == |e|
    ensures forall i :: 0 <= i < |e| ==> dds[i] == DrawdownAt(e, i)
  {
    seq(|e|, i requires 0 <= i < |e| => DrawdownAt(e, i))
  }

  /** `dd.min()`, NaN for an empty curve: the deepest fall below a previous peak. */
  function MaxDrawdown(e: seq<real>): (r: Option<real>)
    requires e == [] || e[0] > 0.0
    ensures r.None? <==> |e| == 0
    ensures r.Some? ==> r.value <= 0.0
    ensures r.Some? ==> forall i :: 0 <= i < |e| ==> r.value <= DrawdownAt(e, i)
    ensures r.Some? ==> exists i :: 0 <= i < |e| && r.value == DrawdownAt(e, i)
  {
    if |e| == 0 then None
    else
      var dds := Drawdowns(e);
      Some(MinOf(dds))
  }

  /** A curve that never falls below an earlier point has no drawdown. */
  lemma {:induction false} NonDecreasingNoDrawdown(e: seq<real>)
    requires |e| > 0 && e[0] > 0.0
    requires forall i :: 0 < i < |e| ==> e[i - 1] <= e[i]
    ensures MaxDrawdown(e) == Some(0.0)
  {
    var dds := Drawdowns(e);
    forall i | 0 <= i < |e|
      ensures dds[i] == 0.0
    {
      var p := e[..i + 1];
      assert forall j :: 0 <= j < |p| ==> p[j] == e[j];
      PeakOfNonDecreasing(p);
      assert p[|p| - 1] == e[i];
    }
    assert MinOf(dds) in dds;
  }

  lemma {:induction false} PeakOfNonDecreasing(s: seq<real>)
    requires |s| > 0
    requires forall i :: 0 < i < |s| ==> s[i - 1] <= s[i]
    ensures MaxOf(s) == s[|s| - 1]
    decreases |s|
  {
    if |s| > 1 {
      PeakOfNonDecreasing(s[..|s| - 1]);
    }
  }

  /** Number of strictly positive returns. */
  function CountPositive(rets: seq<real>): (n: nat)
    ensures n <= |rets|
    ensures n == |rets| <==> forall i :: 0 <= i < |rets| ==> rets[i] > 0.0
    ensures n == 0 <==> forall i :: 0 <= i < |rets| ==> rets[i] <= 0.0
    decreases |rets|
  {
    if |rets| == 0 then 0
    else
      var m := CountPositive(rets[..|rets| - 1]);
      assert forall i :: 0 <= i < |rets| - 1 ==> rets[..|rets| - 1][i] == rets[i];
      m + (if rets[|rets| - 1] > 0.0 then 1 else 0)
  }

  /** `(returns > 0).mean()`, NaN when there are no returns: the fraction of winning periods. */
  function HitRatio(rets: seq<real>): (r: Option<real>)
    ensures r.None? <==> |rets| == 0
    ensures r.Some? ==> 0.0 <= r.value <= 1.0
    ensures r.Some? ==> r.value * |rets| as real == CountPositive(rets) as real
    ensures r.Some? ==> (r.value == 1.0 <==> forall i :: 0 <= i < |rets| ==> rets[i] > 0.0)
    ensures r.Some? ==> (r.value == 0.0 <==> forall i :: 0 <= i < |rets| ==> rets[i] <= 0.0)
  {
    if |rets| == 0 then None
    else
      var n := |rets| as real;
      var c := CountPositive(rets) as real;
      FractionFacts(c, n);
      Some(c / n)
  }

  lemma FractionFacts(c: real, n: real)
    requires 0.0 <= c <= n && n > 0.0
    ensures 0.0 <= c / n <= 1.0
    ensures c / n * n == c
    ensures c / n == 1.0 <==> c == n
    ensures c / n == 0.0 <==> c == 0.0
  {
    assert c / n * n == c;
  }

  /** The per-instrument metrics this model computes (CAGR and Sharpe are not modelled). */
  datatype Metrics = Metrics(maxDrawdown: Option<real>, hitRatio: Option<real>)

  /** `_metrics(returns)`, restricted to drawdown and hit ratio. Every return
      series the backtests build starts with a zero return, so the equity curve
      starts at 1 and the drawdown is well defined. */
  function SummaryMetrics(rets: seq<real>): (m: Metrics)
    requires rets == [] || rets[0] > -1.0
    ensures m.maxDrawdown.None? <==> |rets| == 0
    ensures m.hitRatio.None? <==> |rets| == 0
    ensures m.maxDrawdown.Some? ==> m.maxDrawdown.value <= 0.0
    ensures m.hitRatio.Some? ==> 0.0 <= m.hitRatio.value <= 1.0
  {
    Metrics(MaxDrawdown(Equity(rets)), HitRatio(rets))
  }
}

=== FILE: numbers.dfy ===
/** Arithmetic over `real`, the model's stand-in for the source's floats. */
module Numbers {

  function Abs(x: real): real
  {
    if x < 0.0 then -x else x
  }

  /** Sum of a sequence, accumulated left to right as Python's `sum` does. */
  function SumOf(s: seq<real>): real
    decreases |s|
  {
    if |s| == 0 then 0.0 else SumOf(s[..|s| - 1]) + s[|s| - 1]
  }

  /** Smallest element of a non-empty sequence. */
  function MinOf(s: seq<real>): (m: real)
    requires |s| > 0
    ensures m in s
    ensures forall i :: 0 <= i < |s| ==> m <= s[i]
    decreases |s|
  {
    if |s| == 1 then s[0]
    else
      var m' := MinOf(s[..|s| - 1]);
      if s[|s| - 1] < m' then s[|s| - 1] else m'
  }

  /** Largest element of a non-empty sequence (pandas' `cummax` at the last index). */
  function MaxOf(s: seq<real>): (m: real)
    requires |s| > 0
    ensures m in s
    ensures forall i :: 0 <= i < |s| ==> s[i] <= m
    decreases |s|
  {
    if |s| == 1 then s[0]
    else
      var m' := MaxOf(s[..|s| - 1]);
      if s[|s| - 1] > m' then s[|s| - 1] else m'
  }

  /** A sum of terms that all lie in [lo, hi] lies in [n*lo, n*hi]. */
  lemma {:induction false} SumBounds(s: seq<real>, lo: real, hi: real)
    requires forall i :: 0 <= i < |s| ==> lo <= s[i] <= hi
    ensures lo * |s| as real <= SumOf(s) <= hi * |s| as real
    decreases |s|
  {
    if |s| > 0 {
      SumBounds(s[..|s| - 1], lo, hi);
    }
  }

  /** A sum of `n` copies of `x` is `n` times `x`. */
  lemma {:induction false} SumOfConstant(s: seq<real>, x: real)
    requires forall i :: 0 <= i < |s| ==> s[i] == x
    ensures SumOf(s) == |s| as real * x
    decreases |s|
  {
    if |s| > 0 {
      var n := |s| - 1;
      SumOfConstant(s[..n], x);
      assert n as real * x + x == (n + 1) as real * x;
    }
  }

  /** Scaling every term scales the sum. */
  lemma {:induction false} SumOfScaled(s: seq<real>, t: seq<real>, c: real)
    requires |t| == |s|
    requires forall i :: 0 <= i < |s| ==> t[i] == c * s[i]
    ensures SumOf(t) == c * SumOf(s)
    decreases |s|
  {
    if |s| > 0 {
      var n := |s| - 1;
      SumOfScaled(s[..n], t[..n], c);
      assert c * SumOf(s[..n]) + c * s[n] == c * (SumOf(s[..n]) + s[n]);
    }
  }

  /** Sum of the pairwise products, accumulated left to right. */
  function Dot(xs: seq<real>, ys: seq<real>): real
    requires |xs| == |ys|
    decreases |xs|
  {
    if |xs| == 0 then 0.0
    else
      var n := |xs| - 1;
      Dot(xs[..n], ys[..n]) + xs[n] * ys[n]
  }

  /** The dot product of one-element sequences is their product. */
  lemma DotOne(x: real, y: real)
    ensures Dot([x], [y]) == x * y
  {
    assert [x][..0] == [] && [y][..0] == [];
  }

  /** Scaling one factor of every product scales the dot product. */
  lemma {:induction false} DotScales(xs: seq<real>, xs': seq<real>, ys: seq<real>, c: real)
    requires |xs| == |xs'| == |ys|
    requires forall i :: 0 <= i < |xs| ==> xs'[i] == c * xs[i]
    ensures Dot(xs', ys) == c * Dot(xs, ys)
    decreases |xs|
  {
    if |xs| > 0 {
      var n := |xs| - 1;
      DotScales(xs[..n], xs'[..n], ys[..n], c);
      LinearStep(Dot(xs'[..n], ys[..n]), Dot(xs[..n], ys[..n]), xs'[n], xs[n], ys[n], c);
    }
  }

  /** Two quantities grown by the same factor from equal starting points stay equal. */
  lemma Chain(x': real, x: real, y': real, y: real, c: real)
    requires x' == x * c && y' == y * c && x == y
    ensures x' == y'
  {
  }

  lemma LinearStep(s': real, s: real, a': real, a: real, v: real, c: real)
    requires s' == c * s && a' == c * a
    ensures s' + a' * v == c * (s + a * v)
  {
  }

  /** Against all-zero values every weighting gives zero. */
  lemma {:induction false} DotZero(xs: seq<real>, ys: seq<real>)
    requires |xs| == |ys|
    requires forall i :: 0 <= i < |ys| ==> ys[i] == 0.0
    ensures Dot(xs, ys) == 0.0
    decreases |xs|
  {
    if |xs| > 0 {
      var n := |xs| - 1;
      DotZero(xs[..n], ys[..n]);
    }
  }

  /** The arithmetic mean of values that all lie in [lo, hi] lies in [lo, hi]. */
  lemma MeanBounds(s: seq<real>, lo: real, hi: real)
    requires |s| > 0
    requires forall i :: 0 <= i < |s| ==> lo <= s[i] <= hi
    ensures lo <= SumOf(s) / |s| as real <= hi
  {
    SumBounds(s, lo, hi);
    DivideBounds(SumOf(s), |s| as real, lo, hi);
  }

  /** The arithmetic mean of a non-empty sequence lies between its minimum and maximum. */
  lemma MeanWithinRange(s: seq<real>)
    requires |s| > 0
    ensures MinOf(s) <= SumOf(s) / |s| as real <= MaxOf(s)
  {
    MeanBounds(s, MinOf(s), MaxOf(s));
  }

  /** Dividing `n*lo <= t <= n*hi` by a positive `n`. */
  lemma DivideBounds(t: real, n: real, lo: real, hi: real)
    requires n > 0.0
    requires lo * n <= t <= hi * n
    ensures lo <= t / n <= hi
  {
    assert t / n * n == t;
  }
}

=== FILE: portfolio.dfy ===
/** `sector_report` of portfolio.py: per sector, the tickers that have a last
    price, their average price and their number, one row per sector with at
    least one priced ticker, ordered by sector name. */
module SectorReport {
  import opened Wrappers
  import opened Numbers
  import opened Dicts
  import opened Text
  import opened Market

  type Sector = string

  /** One row of the report frame. */
  datatype Row = Row(sector: Sector, tickers: string, avgPrice: real, count: nat)

  /** `pd.DataFrame([]).sort_values("sector")`: a frame without rows has no
      "sector" column, and sorting by it raises `KeyError`. */
  datatype ReportError = MissingSectorColumn

  /** `[t for t in tickers if t in last_prices]`, in listed order, repeats kept. */
  function Priced(tickers: seq<Ticker>, prices: Dict<Ticker, real>): (ps: seq<Ticker>)
    ensures |ps| <= |tickers|
    ensures forall i :: 0 <= i < |ps| ==> HasKey(prices, ps[i])
    decreases |tickers|
  {
    if |tickers| == 0 then []
    else
      var init, t := tickers[..|tickers| - 1], tickers[|tickers| - 1];
      if HasKey(prices, t) then Priced(init, prices) + [t] else Priced(init, prices)
  }

  /** The tickers kept are exactly the listed ones that have a price. */
  lemma {:induction false} PricedMembers(tickers: seq<Ticker>, prices: Dict<Ticker, real>, t: Ticker)
    ensures t in Priced(tickers, prices) <==> t in tickers && HasKey(prices, t)
    decreases |tickers|
  {
    if |tickers| > 0 {
      var init, u := tickers[..|tickers| - 1], tickers[|tickers| - 1];
      assert tickers == init + [u];
      PricedMembers(init, prices, t);
    }
  }

  /** Filtering distributes over concatenation: kept tickers keep their listed order. */
  lemma {:induction false} PricedAppend(a: seq<Ticker>, b: seq<Ticker>, prices: Dict<Ticker, real>)
    ensures Priced(a + b, prices) == Priced(a, prices) + Priced(b, prices)
    decreases |b|
  {
    if |b| == 0 {
      assert a + b == a;
    } else {
      var n := |b| - 1;
      assert (a + b)[..|a + b| - 1] == a + b[..n];
      assert (a + b)[|a + b| - 1] == b[n];
      PricedAppend(a, b[..n], prices);
    }
  }

  /** A single ticker is kept exactly when it has a price. */
  lemma PricedOne(t: Ticker, prices: Dict<Ticker, real>)
    ensures Priced([t], prices) == if HasKey(prices, t) then [t] else []
  {
    assert [t][..0] == [];
  }

  /** No ticker is kept exactly when none of the listed ones has a price. */
  lemma NonePriced(tickers: seq<Ticker>, prices: Dict<Ticker, real>)
    ensures Priced(tickers, prices) == [] <==> forall t :: t in tickers ==> !HasKey(prices, t)
  {
    var ps := Priced(tickers, prices);
    if ps != [] {
      PricedMembers(tickers, prices, ps[0]);
    }
    if exists t :: t in tickers && HasKey(prices, t) {
      var t :| t in tickers && HasKey(prices, t);
      PricedMembers(tickers, prices, t);
    }
  }

  /** Every priced ticker is kept as often as it is listed; an unpriced one
      not at all. */
  lemma {:induction false} PricedCounts(tickers: seq<Ticker>, prices: Dict<Ticker, real>, t: Ticker)
    ensures multiset(Priced(tickers, prices))[t] == if HasKey(prices, t) then multiset(tickers)[t] else 0
    decreases |tickers|
  {
    if |tickers| > 0 {
      var init, u := tickers[..|tickers| - 1], tickers[|tickers| - 1];
      assert tickers == init + [u];
      PricedCounts(init, prices, t);
    }
  }

  /** `[last_prices.get(t) for t in tickers if t in last_prices]` */
  function PricesOf(ps: seq<Ticker>, prices: Dict<Ticker, real>): (vals: seq<real>)
    requires forall i :: 0 <= i < |ps| ==> HasKey(prices, ps[i])
    ensures |vals| == |ps|
    ensures forall i :: 0 <= i < |ps| ==> Get(prices, ps[i]) == Some(vals[i])
  {
    seq(|ps|, i requires 0 <= i < |ps| && HasKey(prices, ps[i]) => Get(prices, ps[i]).value)
  }

  /** The row of one sector, if any of its tickers has a price: the priced
      tickers joined by ", ", their mean price and their number. */
  function SectorRow(sector: Sector, tickers: seq<Ticker>, prices: Dict<Ticker, real>): (r: Option<Row>)
    ensures r.None? <==> Priced(tickers, prices) == []
    ensures r.Some? ==> r.value.sector == sector && r.value.count == |Priced(tickers, prices)| > 0
  {
    var ps := Priced(tickers, prices);
    if |ps| == 0 then
      None
    else
      var vals := PricesOf(ps, prices);
      Some(Row(sector, Join(ps, ", "), SumOf(vals) / |vals| as real, |vals|))
  }

  /** The ticker list and the average describe the same tickers: the average
      is the mean of the prices of exactly the tickers listed in the row, so
      it lies between the lowest and the highest of them. */
  lemma SectorRowAverage(sector: Sector, tickers: seq<Ticker>, prices: Dict<Ticker, real>)
    requires SectorRow(sector, tickers, prices).Some?
    ensures var r := SectorRow(sector, tickers, prices).value;
            var ps := Priced(tickers, prices);
            var vals := PricesOf(ps, prices);
            && r.tickers == Join(ps, ", ")
            && r.count == |vals| && r.avgPrice == SumOf(vals) / |vals| as real
            && MinOf(vals) <= r.avgPrice <= MaxOf(vals)
  {
    var ps := Priced(tickers, prices);
    var vals := PricesOf(ps, prices);
    var r := SectorRow(sector, tickers, prices).value;
    assert r == Row(sector, Join(ps, ", "), SumOf(vals) / |vals| as real, |vals|);
    MeanWithinRange(vals);
  }

  /** The values present in a sequence of optional values, in order. */
  function Present<T(!new)>(xs: seq<Option<T>>): (ys: seq<T>)
    ensures |ys| <= |xs|
    ensures ys == [] <==> forall i :: 0 <= i < |xs| ==> xs[i].None?
    ensures forall y :: y in ys <==> exists i :: 0 <= i < |xs| && xs[i] == Some(y)
    decreases |xs|
  {
    if |xs| == 0 then []
    else
      var init := xs[..|xs| - 1];
      assert forall i :: 0 <= i < |init| ==> init[i] == xs[i];
      var prev := Present(init);
      match xs[|xs| - 1]
      case None => prev
      case Some(y) => prev + [y]
  }

  /** The row each sector would contribute, in the order of `sectors`. */
  function Candidates(sectors: Dict<Sector, seq<Ticker>>, prices: Dict<Ticker, real>): (cs: seq<Option<Row>>)
    ensures |cs| == |sectors|
    ensures forall i :: 0 <= i < |sectors| ==> cs[i] == SectorRow(sectors[i].0, sectors[i].1, prices)
  {
    seq(|sectors|, i requires 0 <= i < |sectors| => SectorRow(sectors[i].0, sectors[i].1, prices))
  }

  /** `rows` after the loop over `sectors.items()`, before sorting: sectors
      without a priced ticker are skipped. */
  function Rows(sectors: Dict<Sector, seq<Ticker>>, prices: Dict<Ticker, real>): (rs: seq<Row>)
    ensures |rs| <= |sectors|
    ensures forall r :: r in rs <==>
              exists i :: 0 <= i < |sectors| && SectorRow(sectors[i].0, sectors[i].1, prices) == Some(r)
  {
    Present(Candidates(sectors, prices))
  }

  /** No two rows share a sector name. */
  predicate DistinctSectors(rows: seq<Row>)
  {
    forall i, j :: 0 <= i < j < |rows| ==> rows[i].sector != rows[j].sector
  }

  /** Taking one more sector into account appends its row, if it has one. */
  lemma RowsSnoc(sectors: Dict<Sector, seq<Ticker>>, prices: Dict<Ticker, real>)
    requires |sectors| > 0
    ensures var n := |sectors| - 1;
            var own := SectorRow(sectors[n].0, sectors[n].1, prices);
            Rows(sectors, prices) == Rows(sectors[..n], prices) + (if own.Some? then [own.value] else [])
  {
    var n := |sectors| - 1;
    var cs := Candidates(sectors, prices);
    assert cs[..n] == Candidates(sectors[..n], prices);
  }

  /** Every row collected from the first `n` sectors belongs to one of them. */
  lemma RowSectorListed(sectors: Dict<Sector, seq<Ticker>>, prices: Dict<Ticker, real>, n: nat, r: Row)
    requires n <= |sectors| && r in Rows(sectors[..n], prices)
    ensures exists j :: 0 <= j < n && sectors[j].0 == r.sector
  {
    var init := sectors[..n];
    var j :| 0 <= j < |init| && SectorRow(init[j].0, init[j].1, prices) == Some(r);
    assert init[j] == sectors[j];
  }

  /** Appending a row whose sector is new keeps the sectors distinct. */
  lemma DistinctSnoc(rows: seq<Row>, x: Row)
    requires DistinctSectors(rows)
    requires forall r :: r in rows ==> r.sector != x.sector
    ensures DistinctSectors(rows + [x])
  {
    var ext := rows + [x];
    forall i, j | 0 <= i < j < |ext|
      ensures ext[i].sector != ext[j].sector
    {
      if j == |rows| {
        assert ext[i] == rows[i];
      }
    }
  }

  /** With distinct sector names, no row collected before the last sector
      carries the last sector's name. */
  lemma LastSectorIsNew(sectors: Dict<Sector, seq<Ticker>>, prices: Dict<Ticker, real>)
    requires UniqueKeys(sectors) && |sectors| > 0
    ensures forall r :: r in Rows(sectors[..|sectors| - 1], prices) ==> r.sector != sectors[|sectors| - 1].0
  {
    var n := |sectors| - 1;
    forall r | r in Rows(sectors[..n], prices)
      ensures r.sector != sectors[n].0
    {
      RowSectorListed(sectors, prices, n, r);
      var j :| 0 <= j < n && sectors[j].0 == r.sector;
      assert sectors[j].0 != sectors[n].0;
    }
  }

  /** With distinct sector names, the loop collects at most one row per sector. */
  lemma {:induction false} RowsOnePerSector(sectors: Dict<Sector, seq<Ticker>>, prices: Dict<Ticker, real>)
    requires UniqueKeys(sectors)
    ensures DistinctSectors(Rows(sectors, prices))
    decreases |sectors|
  {
    if |sectors| > 0 {
      var n := |sectors| - 1;
      var init := sectors[..n];
      assert UniqueKeys(init) by {
        forall i, j | 0 <= i < j < |init|
          ensures init[i].0 != init[j].0
        {
          assert init[i] == sectors[i] && init[j] == sectors[j];
        }
      }
      RowsOnePerSector(init, prices);
      RowsSnoc(sectors, prices);
      var own := SectorRow(sectors[n].0, sectors[n].1, prices);
      if own.Some? {
        LastSectorIsNew(sectors, prices);
        DistinctSnoc(Rows(init, prices), own.value);
      }
    }
  }

  /** Rows in ascending order of sector name. */
  predicate SortedBySector(rows: seq<Row>)
  {
    forall i :: 0 < i < |rows| ==> StrLe(rows[i - 1].sector, rows[i].sector)
  }

  /** Place `r` in front of the first row whose sector it does not exceed. */
  function Insert(r: Row, rows: seq<Row>): (out: seq<Row>)
    requires SortedBySector(rows)
    ensures SortedBySector(out)
    ensures multiset(out) == multiset(rows) + multiset{r}
    ensures |out| > 0 && (out[0] == r || (|rows| > 0 && out[0] == rows[0]))
    decreases |rows|
  {
    if |rows| == 0 then [r]
    else if StrLe(r.sector, rows[0].sector) then [r] + rows
    else
      StrLeTotal(r.sector, rows[0].sector);
      var rest := Insert(r, rows[1..]);
      assert rows == [rows[0]] + rows[1..];
      [rows[0]] + rest
  }

  /** In a sorted list the first row's sector is the least. */
  lemma {:induction false} SortedFirstLeast(rows: seq<Row>, k: nat)
    requires SortedBySector(rows) && k < |rows|
    ensures StrLe(rows[0].sector, rows[k].sector)
  {
    if k == 0 {
      StrLeTotal(rows[0].sector, rows[0].sector);
    } else {
      SortedFirstLeast(rows, k - 1);
      StrLeTransitive(rows[0].sector, rows[k - 1].sector, rows[k].sector);
    }
  }

  /** Dropping the first row keeps a list sorted. */
  lemma SortedTail(rows: seq<Row>)
    requires SortedBySector(rows) && |rows| > 0
    ensures SortedBySector(rows[1..])
  {
    var tail := rows[1..];
    forall i | 0 < i < |tail|
      ensures StrLe(tail[i - 1].sector, tail[i].sector)
    {
      assert tail[i - 1] == rows[i] && tail[i] == rows[i + 1];
    }
  }

  /** Two sorted orders of the same rows with distinct sectors start alike. */
  lemma SortedSameHead(a: seq<Row>, b: seq<Row>)
    requires SortedBySector(a) && SortedBySector(b)
    requires multiset(a) == multiset(b) && DistinctSectors(a) && |a| > 0
    ensures |b| > 0 && a[0] == b[0]
  {
    assert a[0] in multiset(b);
    assert b[0] in multiset(a);
    var i :| 0 <= i < |a| && a[i] == b[0];
    var j :| 0 <= j < |b| && b[j] == a[0];
    SortedFirstLeast(a, i);
    SortedFirstLeast(b, j);
    StrLeAntisymmetric(a[0].sector, b[0].sector);
    assert a[i].sector == a[0].sector;
  }

  /** Dropping the first row keeps the sectors distinct. */
  lemma DistinctTail(rows: seq<Row>)
    requires DistinctSectors(rows) && |rows| > 0
    ensures DistinctSectors(rows[1..])
  {
    var tail := rows[1..];
    forall i, j | 0 <= i < j < |tail|
      ensures tail[i].sector != tail[j].sector
    {
      assert tail[i] == rows[i + 1] && tail[j] == rows[j + 1];
    }
  }

  /** Lists with the same elements and the same first element have tails
      with the same elements. */
  lemma SameTails(a: seq<Row>, b: seq<Row>)
    requires |a| > 0 && |b| > 0 && a[0] == b[0] && multiset(a) == multiset(b)
    ensures multiset(a[1..]) == multiset(b[1..])
  {
    var x := a[0];
    assert a == [x] + a[1..] && b == [x] + b[1..];
    assert multiset(a) == multiset{x} + multiset(a[1..]);
    assert multiset(b) == multiset{x} + multiset(b[1..]);
    forall y
      ensures multiset(a[1..])[y] == multiset(b[1..])[y]
    {
      assert multiset(a)[y] == multiset(b)[y];
    }
  }

  /** Rows with distinct sectors have only one sorted order: every sort of
      them, stable or not, gives the same list. */
  lemma {:induction false} SortedIsUnique(a: seq<Row>, b: seq<Row>)
    requires SortedBySector(a) && SortedBySector(b)
    requires multiset(a) == multiset(b) && DistinctSectors(a)
    ensures a == b
    decreases |a|
  {
    if |a| == 0 {
      assert |b| == |multiset(b)| == 0;
    } else {
      SortedSameHead(a, b);
      SameTails(a, b);
      SortedTail(a);
      SortedTail(b);
      DistinctTail(a);
      SortedIsUnique(a[1..], b[1..]);
    }
  }

  /** Sorting neither adds nor drops a row. */
  lemma SortKeepsMembers(rows: seq<Row>)
    ensures forall r :: r in SortBySector(rows) <==> r in rows
  {
    var out := SortBySector(rows);
    forall r
      ensures r in out <==> r in rows
    {
      assert r in out <==> multiset(out)[r] > 0;
      assert r in rows <==> multiset(rows)[r] > 0;
    }
  }

  /** `sort_values("sector")`: the same rows, ordered by sector name. */
  function SortBySector(rows: seq<Row>): (out: seq<Row>)
    ensures SortedBySector(out)
    ensures multiset(out) == multiset(rows)
    decreases |rows|
  {
    if |rows| == 0 then []
    else
      assert rows == [rows[0]] + rows[1..];
      Insert(rows[0], SortBySector(rows[1..]))
  }

  /** `sector_report(sectors, last_prices)` as written: the rows sorted by
      sector, or the `KeyError` of sorting a frame that has no rows and so no
      "sector" column. */
  function SectorReportAsWritten(sectors: Dict<Sector, seq<Ticker>>, prices: Dict<Ticker, real>): (r: Result<seq<Row>, ReportError>)
    ensures r.Failure? <==> Rows(sectors, prices) == []
    ensures r.Success? ==> SortedBySector(r.value) && multiset(r.value) == multiset(Rows(sectors, prices))
  {
    var rows := Rows(sectors, prices);
    if |rows| == 0 then Failure(MissingSectorColumn) else Success(SortBySector(rows))
  }

  /** A report over sectors none of whose tickers has a price raises instead
      of returning an empty frame. */
  lemma UnpricedSectorsRaise(sectors: Dict<Sector, seq<Ticker>>, prices: Dict<Ticker, real>)
    requires forall i, t :: 0 <= i < |sectors| && t in sectors[i].1 ==> !HasKey(prices, t)
    ensures SectorReportAsWritten(sectors, prices) == Failure(MissingSectorColumn)
  {
    var cs := Candidates(sectors, prices);
    forall i | 0 <= i < |sectors|
      ensures cs[i].None?
    {
      NonePriced(sectors[i].1, prices);
    }
  }

  /** A concrete case: one sector whose only ticker has no price. */
  lemma UnpricedSectorExample()
    ensures SectorReportAsWritten([("Tech", ["ASML.AS"])], []) == Failure(MissingSectorColumn)
  {
    UnpricedSectorsRaise([("Tech", ["ASML.AS"])], []);
  }

  /** `sector_report` with an empty report for the case above: the rows of
      the loop in ascending order of sector name, and the same rows as the
      source whenever the source returns. */
  function SectorReport(sectors: Dict<Sector, seq<Ticker>>, prices: Dict<Ticker, real>): (rows: seq<Row>)
    ensures SortedBySector(rows)
    ensures multiset(rows) == multiset(Rows(sectors, prices))
    ensures SectorReportAsWritten(sectors, prices).Success? ==> rows == SectorReportAsWritten(sectors, prices).value
    ensures SectorReportAsWritten(sectors, prices).Failure? ==> rows == []
  {
    SortBySector(Rows(sectors, prices))
  }

  /** With distinct sector names, any list of the collected rows sorted by
      sector, in whatever way ties would be broken, is the report. */
  lemma SectorReportIsAnySort(sectors: Dict<Sector, seq<Ticker>>, prices: Dict<Ticker, real>, out: seq<Row>)
    requires UniqueKeys(sectors)
    requires SortedBySector(out) && multiset(out) == multiset(Rows(sectors, prices))
    ensures out == SectorReport(sectors, prices)
  {
    RowsOnePerSector(sectors, prices);
    PermutationKeepsDistinct(Rows(sectors, prices), out);
    SortedIsUnique(out, SectorReport(sectors, prices));
  }

  /** With distinct sector names, the report has at most one row per sector. */
  lemma SectorReportOnePerSector(sectors: Dict<Sector, seq<Ticker>>, prices: Dict<Ticker, real>)
    requires UniqueKeys(sectors)
    ensures DistinctSectors(SectorReport(sectors, prices))
  {
    RowsOnePerSector(sectors, prices);
    PermutationKeepsDistinct(Rows(sectors, prices), SectorReport(sectors, prices));
  }

  /** Reordering rows keeps their sectors distinct. */
  lemma PermutationKeepsDistinct(a: seq<Row>, b: seq<Row>)
    requires DistinctSectors(a) && multiset(a) == multiset(b)
    ensures DistinctSectors(b)
  {
    forall i, j | 0 <= i < j < |b|
      ensures b[i].sector != b[j].sector
    {
      assert b[i] in multiset(a) && b[j] in multiset(a);
      var i' :| 0 <= i' < |a| && a[i'] == b[i];
      var j' :| 0 <= j' < |a| && a[j'] == b[j];
      if i' == j' {
        CountTwice(b, i, j);
        DistinctOnce(a, i');
      }
    }
  }

  /** An element at two positions is counted at least twice. */
  lemma CountTwice(s: seq<Row>, i: nat, j: nat)
    requires i < j < |s| && s[i] == s[j]
    ensures multiset(s)[s[i]] >= 2
  {
    assert s == s[..i] + [s[i]] + s[i + 1..j] + [s[j]] + s[j + 1..];
  }

  /** A row of a list with distinct sectors occurs in it once. */
  lemma DistinctOnce(rows: seq<Row>, i: nat)
    requires DistinctSectors(rows) && i < |rows|
    ensures multiset(rows)[rows[i]] == 1
  {
    var before, after := rows[..i], rows[i + 1..];
    assert rows == before + [rows[i]] + after;
    forall k | 0 <= k < |before|
      ensures before[k] != rows[i]
    {
      assert before[k].sector == rows[k].sector != rows[i].sector;
    }
    forall k | 0 <= k < |after|
      ensures after[k] != rows[i]
    {
      assert after[k].sector == rows[i + 1 + k].sector != rows[i].sector;
    }
    assert multiset(before)[rows[i]] == 0 && multiset(after)[rows[i]] == 0;
  }

  /** A sector has a row in the report exactly when at least one of its
      tickers has a price, and every row comes from such a sector. */
  lemma SectorReportCoverage(sectors: Dict<Sector, seq<Ticker>>, prices: Dict<Ticker, real>, i: nat)
    requires UniqueKeys(sectors) && i < |sectors|
    ensures (exists r :: r in SectorReport(sectors, prices) && r.sector == sectors[i].0) <==>
              exists t :: t in sectors[i].1 && HasKey(prices, t)
  {
    var rows := Rows(sectors, prices);
    var out := SortBySector(rows);
    SortKeepsMembers(rows);
    NonePriced(sectors[i].1, prices);
    if exists r :: r in out && r.sector == sectors[i].0 {
      var r :| r in out && r.sector == sectors[i].0;
      var j :| 0 <= j < |sectors| && SectorRow(sectors[j].0, sectors[j].1, prices) == Some(r);
      assert sectors[j].0 == sectors[i].0;
      assert j == i;
    }
    var own := SectorRow(sectors[i].0, sectors[i].1, prices);
    if own.Some? {
      assert own.value in rows;
    }
  }

  /** Every row of the report is the row of a sector with a priced ticker. */
  lemma SectorReportRowsPriced(sectors: Dict<Sector, seq<Ticker>>, prices: Dict<Ticker, real>, r: Row)
    requires r in SectorReport(sectors, prices)
    ensures exists i :: 0 <= i < |sectors| && SectorRow(sectors[i].0, sectors[i].1, prices) == Some(r)
                        && r.sector == sectors[i].0
                        && exists t :: t in sectors[i].1 && HasKey(prices, t)
  {
    var rows := Rows(sectors, prices);
    assert multiset(SectorReport(sectors, prices))[r] > 0;
    assert r in rows;
    var i :| 0 <= i < |sectors| && SectorRow(sectors[i].0, sectors[i].1, prices) == Some(r);
    NonePriced(sectors[i].1, prices);
  }
}

=== FILE: portfolio_backtest.dfy ===
/** `backtest_portfolio`: per-ticker strategy returns aligned on the union of
    their dates, missing dates counted as a zero return, and combined with
    fixed weights into one portfolio return per date. */
module PortfolioBacktest {
  import opened Wrappers
  import opened Numbers
  import opened Dicts
  import opened Weights
  import opened Market
  import opened Signals
  import opened Metrics
  import opened Backtest

  /** Strictly increasing dates: a pandas index in time order without repeats. */
  predicate Increasing(ds: seq<Date>)
  {
    forall i, j :: 0 <= i < j < |ds| ==> ds[i] < ds[j]
  }

  /** Every date of `ds` comes strictly after `d`. */
  predicate After(d: Date, ds: seq<Date>)
  {
    forall e :: e in ds ==> d < e
  }

  lemma IncreasingCons(d: Date, ds: seq<Date>)
    requires Increasing(ds) && After(d, ds)
    ensures Increasing([d] + ds)
  {
    forall i, j | 0 <= i < j < |[d] + ds|
      ensures ([d] + ds)[i] < ([d] + ds)[j]
    {
      assert ([d] + ds)[j] == ds[j - 1] && ds[j - 1] in ds;
      if i > 0 {
        assert ([d] + ds)[i] == ds[i - 1];
      }
    }
  }

  /** In an increasing index the first date is the earliest. */
  lemma FirstIsEarliest(ds: seq<Date>)
    requires Increasing(ds) && |ds| > 0
    ensures After(ds[0], ds[1..])
  {
    forall e | e in ds[1..]
      ensures ds[0] < e
    {
      var j :| 0 <= j < |ds[1..]| && ds[1..][j] == e;
      assert ds[j + 1] == e;
    }
  }

  /** The outer join of two time indexes: every date of either, once, in order. */
  function Merge(a: seq<Date>, b: seq<Date>): (r: seq<Date>)
    requires Increasing(a) && Increasing(b)
    ensures Increasing(r)
    ensures forall d :: d in r <==> d in a || d in b
    decreases |a| + |b|
  {
    if |a| == 0 then b
    else if |b| == 0 then a
    else
      FirstIsEarliest(a);
      FirstIsEarliest(b);
      assert a == [a[0]] + a[1..] && b == [b[0]] + b[1..];
      var d := if a[0] <= b[0] then a[0] else b[0];
      var rest :=
        if a[0] < b[0] then Merge(a[1..], b)
        else if b[0] < a[0] then Merge(a, b[1..])
        else Merge(a[1..], b[1..]);
      IncreasingCons(d, rest);
      [d] + rest
  }

  /** One ticker's strategy returns, indexed by its indicator dates. */
  datatype Column = Column(ticker: Ticker, dates: seq<Date>, values: seq<real>)

  /** What every column of a backtest satisfies: one return per date, dates
      in order, and no return on the first date. */
  predicate ValidColumn(c: Column)
  {
    && |c.dates| == |c.values|
    && Increasing(c.dates)
    && (|c.values| > 0 ==> c.values[0] == 0.0)
  }

  /** Dates of the indicator rows. */
  function DatesOf(rows: seq<IndicatorRow>): (ds: seq<Date>)
    ensures |ds| == |rows|
    ensures forall i :: 0 <= i < |rows| ==> ds[i] == rows[i].date
  {
    seq(|rows|, i requires 0 <= i < |rows| => rows[i].date)
  }

  /** What the portfolio needs of each ticker's indicator rows: closes usable
      as percentage-change bases, and dates in order. */
  predicate Admissible(rows: seq<IndicatorRow>)
  {
    PriorClosesNonZero(rows) && Increasing(DatesOf(rows))
  }

  /** `res["returns"].rename(t)` */
  function TickerColumn(t: Ticker, rows: seq<IndicatorRow>, th: Thresholds, costBps: int): (c: Column)
    requires Admissible(rows)
    ensures ValidColumn(c)
    ensures c.ticker == t && c.dates == DatesOf(rows)
    ensures c.values == BacktestRows(rows, th, costBps).netReturns
  {
    var r := BacktestRows(rows, th, costBps);
    assert r.dates == DatesOf(rows);
    Column(t, r.dates, r.netReturns)
  }

  /** The columns of the portfolio frame, one per ticker in `prices` order. */
  function Columns(prices: Dict<Ticker, PriceSeries>, params: Params, costBps: int, engine: Engine): (cols: seq<Column>)
    requires forall i :: 0 <= i < |prices| ==> Admissible(engine(prices[i].1, params.indicator))
    ensures |cols| == |prices|
    ensures forall i :: 0 <= i < |prices| ==> ValidColumn(cols[i])
    ensures forall i :: 0 <= i < |prices| ==>
              cols[i] == TickerColumn(prices[i].0, engine(prices[i].1, params.indicator), params.thresholds, costBps)
  {
    var cols := seq(|prices|, i requires 0 <= i < |prices| && Admissible(engine(prices[i].1, params.indicator)) =>
      TickerColumn(prices[i].0, engine(prices[i].1, params.indicator), params.thresholds, costBps));
    assert forall i :: 0 <= i < |prices| ==>
      cols[i] == TickerColumn(prices[i].0, engine(prices[i].1, params.indicator), params.thresholds, costBps);
    cols
  }

  /** Each column of the portfolio frame is the `returns` series of
      `backtest_ticker` run on that ticker's prices, on the same dates. */
  lemma ColumnIsTickerBacktest(prices: Dict<Ticker, PriceSeries>, params: Params, costBps: int, engine: Engine, i: nat)
    requires forall j :: 0 <= j < |prices| ==> Admissible(engine(prices[j].1, params.indicator))
    requires i < |prices|
    ensures var c := Columns(prices, params, costBps, engine)[i];
            var r := BacktestTicker(prices[i].1, params, costBps, engine);
            c.ticker == prices[i].0 && c.dates == r.dates && c.values == r.netReturns
  {
    var rows := engine(prices[i].1, params.indicator);
    assert BacktestTicker(prices[i].1, params, costBps, engine) == BacktestRows(rows, params.thresholds, costBps);
  }

  /** `d` is a date of at least one column. */
  predicate InSomeColumn(cols: seq<Column>, d: Date)
  {
    exists i :: 0 <= i < |cols| && d in cols[i].dates
  }

  /** `d` is a date of no column. */
  predicate OffAllColumns(cols: seq<Column>, d: Date)
  {
    forall i :: 0 <= i < |cols| ==> d !in cols[i].dates
  }

  /** The index of `pd.concat(rets, axis=1)`: the sorted union of all column dates. */
  function UnionDates(cols: seq<Column>): (ds: seq<Date>)
    requires forall i :: 0 <= i < |cols| ==> ValidColumn(cols[i])
    ensures Increasing(ds)
    ensures forall d :: d in ds <==> InSomeColumn(cols, d)
    decreases |cols|
  {
    if |cols| == 0 then []
    else
      var init, last := cols[..|cols| - 1], cols[|cols| - 1];
      assert forall i :: 0 <= i < |init| ==> init[i] == cols[i];
      assert ValidColumn(last);
      var ds := Merge(UnionDates(init), last.dates);
      assert forall d :: InSomeColumn(cols, d) <==> InSomeColumn(init, d) || d in last.dates by {
        forall d
          ensures InSomeColumn(cols, d) <==> InSomeColumn(init, d) || d in last.dates
        {
          if InSomeColumn(cols, d) {
            var i :| 0 <= i < |cols| && d in cols[i].dates;
            if i < |init| {
              assert d in init[i].dates;
            }
          }
          if InSomeColumn(init, d) {
            var i :| 0 <= i < |init| && d in init[i].dates;
            assert d in cols[i].dates;
          }
        }
      }
      ds
  }

  /** Position of `d` in an index that contains it. */
  function IndexOf(ds: seq<Date>, d: Date): (i: nat)
    requires d in ds
    ensures i < |ds| && ds[i] == d
    decreases |ds|
  {
    if ds[0] == d then 0 else 1 + IndexOf(ds[1..], d)
  }

  /** `df[c]` on date `d` after `fillna(0.0)`: the column's return if it has
      that date, and 0 otherwise. */
  function ValueOn(c: Column, d: Date): (v: real)
    requires ValidColumn(c)
    ensures d !in c.dates ==> v == 0.0
    ensures forall i :: 0 <= i < |c.dates| && c.dates[i] == d ==> v == c.values[i]
  {
    if d in c.dates then
      var k := IndexOf(c.dates, d);
      assert forall i :: 0 <= i < |c.dates| && c.dates[i] == d ==> i == k;
      c.values[k]
    else 0.0
  }

  /** `pd.Series(weights).reindex(df.columns).fillna(0.0)`: one weight per
      column, 0 for a ticker the dictionary does not name. */
  function AlignedWeights(cols: seq<Column>, w: Dict<Ticker, real>): (ws: seq<real>)
    ensures |ws| == |cols|
    ensures forall i :: 0 <= i < |cols| ==> ws[i] == WeightOf(w, cols[i].ticker)
  {
    seq(|cols|, i requires 0 <= i < |cols| => WeightOf(w, cols[i].ticker))
  }

  /** `df.loc[d]` after `fillna(0.0)`: every column's value on `d`. */
  function ValuesOn(cols: seq<Column>, d: Date): (vs: seq<real>)
    requires forall i :: 0 <= i < |cols| ==> ValidColumn(cols[i])
    ensures |vs| == |cols|
    ensures forall i :: 0 <= i < |cols| ==> vs[i] == ValueOn(cols[i], d)
  {
    seq(|cols|, i requires 0 <= i < |cols| && ValidColumn(cols[i]) => ValueOn(cols[i], d))
  }

  /** `(df * w).sum(axis=1)` on one date: each column's value on `d` times
      its aligned weight, added up over the columns in order. */
  function WeightedSum(cols: seq<Column>, ws: seq<real>, d: Date): (r: real)
    requires |ws| == |cols|
    requires forall i :: 0 <= i < |cols| ==> ValidColumn(cols[i])
    ensures OffAllColumns(cols, d) ==> r == 0.0
  {
    var vs := ValuesOn(cols, d);
    assert OffAllColumns(cols, d) ==> Dot(ws, vs) == 0.0 by {
      if OffAllColumns(cols, d) {
        DotZero(ws, vs);
      }
    }
    Dot(ws, vs)
  }

  /** The portfolio return series over the aligned dates. */
  function PortfolioReturns(cols: seq<Column>, ws: seq<real>, dates: seq<Date>): (r: seq<real>)
    requires |ws| == |cols|
    requires forall i :: 0 <= i < |cols| ==> ValidColumn(cols[i])
    ensures |r| == |dates|
    ensures forall i :: 0 <= i < |dates| ==> r[i] == WeightedSum(cols, ws, dates[i])
  {
    seq(|dates|, i requires 0 <= i < |dates| => WeightedSum(cols, ws, dates[i]))
  }

  /** `metrics` of the portfolio: only the maximum drawdown is modelled. */
  datatype PortfolioMetrics = PortfolioMetrics(maxDrawdown: Option<real>)

  /** The dictionary returned by `backtest_portfolio`; `metrics == None` is its empty `{}`. */
  datatype PortfolioResult = PortfolioResult(
    metrics: Option<PortfolioMetrics>,
    dates: seq<Date>,
    equity: seq<real>,
    netReturns: seq<real>)

  const EmptyPortfolio := PortfolioResult(None, [], [], [])

  /** `if not weights: weights = {t: 1/len(tickers) for t in tickers}`:
      no weights, or an empty dictionary, means equal weights. */
  function EffectiveWeights(tickers: seq<Ticker>, weights: Option<Dict<Ticker, real>>): (w: Dict<Ticker, real>)
    ensures weights.Some? && |weights.value| > 0 ==> w == weights.value
    ensures (weights.None? || |weights.value| == 0) ==>
              forall t :: t in tickers ==> WeightOf(w, t) == 1.0 / |tickers| as real
  {
    if weights.None? || |weights.value| == 0 then EqualWeights(tickers) else weights.value
  }

  /** `d` comes no later than any date of any column. */
  predicate NotAfterAny(cols: seq<Column>, d: Date)
  {
    forall i, e :: 0 <= i < |cols| && e in cols[i].dates ==> d <= e
  }

  /** A date no later than every column's first date earns nothing: a
      column that has it has it as its first date, whose return is 0. */
  lemma NothingBeforeFirstDates(cols: seq<Column>, ws: seq<real>, d: Date)
    requires |ws| == |cols|
    requires forall i :: 0 <= i < |cols| ==> ValidColumn(cols[i])
    requires NotAfterAny(cols, d)
    ensures WeightedSum(cols, ws, d) == 0.0
  {
    var vs := ValuesOn(cols, d);
    forall i | 0 <= i < |cols|
      ensures vs[i] == 0.0
    {
      var c := cols[i];
      if d in c.dates {
        assert c.dates[0] in cols[i].dates;
        var k := IndexOf(c.dates, d);
        assert k == 0;
      }
    }
    DotZero(ws, vs);
  }

  /** The earliest date of the aligned index has a zero portfolio return. */
  lemma FirstDateIsFlat(cols: seq<Column>, ws: seq<real>)
    requires |ws| == |cols|
    requires forall i :: 0 <= i < |cols| ==> ValidColumn(cols[i])
    requires |UnionDates(cols)| > 0
    ensures WeightedSum(cols, ws, UnionDates(cols)[0]) == 0.0
  {
    var ds := UnionDates(cols);
    forall i, e | 0 <= i < |cols| && e in cols[i].dates
      ensures ds[0] <= e
    {
      assert InSomeColumn(cols, e);
      var j :| 0 <= j < |ds| && ds[j] == e;
    }
    NothingBeforeFirstDates(cols, ws, ds[0]);
  }

  /** The body of `backtest_portfolio` once the columns and weights are
      fixed: align, weight, sum, compound, and take the drawdown. */
  function Aggregate(cols: seq<Column>, w: Dict<Ticker, real>): (r: PortfolioResult)
    requires forall i :: 0 <= i < |cols| ==> ValidColumn(cols[i])
    ensures Increasing(r.dates)
    ensures forall d :: d in r.dates <==> InSomeColumn(cols, d)
    ensures |r.netReturns| == |r.dates| == |r.equity|
    ensures forall k :: 0 <= k < |r.dates| ==> r.netReturns[k] == WeightedSum(cols, AlignedWeights(cols, w), r.dates[k])
    ensures |r.dates| > 0 ==> r.netReturns[0] == 0.0 && r.equity[0] == 1.0
    ensures r.equity == Equity(r.netReturns)
    ensures r.equity == [] || r.equity[0] > 0.0
    ensures r.metrics == Some(PortfolioMetrics(MaxDrawdown(r.equity)))
  {
    var dates := UnionDates(cols);
    var ws := AlignedWeights(cols, w);
    var rets := PortfolioReturns(cols, ws, dates);
    var equity := Equity(rets);
    assert |dates| > 0 ==> rets[0] == 0.0 && equity[0] == 1.0 by {
      if |dates| > 0 {
        FirstDateIsFlat(cols, ws);
      }
    }
    PortfolioResult(Some(PortfolioMetrics(MaxDrawdown(equity))), dates, equity, rets)
  }

  /** `backtest_portfolio` over the engine's indicator rows: no tickers give
      the empty result; otherwise the columns of every ticker are combined
      with the given weights, or equal weights when none are given. CAGR and
      Sharpe are not modelled. */
  function BacktestPortfolio(prices: Dict<Ticker, PriceSeries>, params: Params,
                             weights: Option<Dict<Ticker, real>>, costBps: int, engine: Engine): (r: PortfolioResult)
    requires forall i :: 0 <= i < |prices| ==> Admissible(engine(prices[i].1, params.indicator))
    ensures r.metrics.None? <==> |prices| == 0
    ensures |prices| == 0 ==> r == EmptyPortfolio
    ensures |prices| > 0 ==>
              r == Aggregate(Columns(prices, params, costBps, engine), EffectiveWeights(KeysOf(prices), weights))
  {
    if |prices| == 0 then EmptyPortfolio
    else Aggregate(Columns(prices, params, costBps, engine), EffectiveWeights(KeysOf(prices), weights))
  }

  /** The aligned index is exactly the set of dates on which some ticker has
      an indicator row. */
  lemma PortfolioDatesAreTickerDates(prices: Dict<Ticker, PriceSeries>, params: Params,
                                     weights: Option<Dict<Ticker, real>>, costBps: int, engine: Engine)
    requires forall i :: 0 <= i < |prices| ==> Admissible(engine(prices[i].1, params.indicator))
    ensures forall d :: d in BacktestPortfolio(prices, params, weights, costBps, engine).dates <==>
              exists i :: 0 <= i < |prices| && d in DatesOf(engine(prices[i].1, params.indicator))
  {
    var cols := Columns(prices, params, costBps, engine);
    forall d
      ensures InSomeColumn(cols, d) <==>
              exists i :: 0 <= i < |prices| && d in DatesOf(engine(prices[i].1, params.indicator))
    {
      if InSomeColumn(cols, d) {
        var i :| 0 <= i < |cols| && d in cols[i].dates;
        assert d in DatesOf(engine(prices[i].1, params.indicator));
      }
      if exists i :: 0 <= i < |prices| && d in DatesOf(engine(prices[i].1, params.indicator)) {
        var i :| 0 <= i < |prices| && d in DatesOf(engine(prices[i].1, params.indicator));
        assert d in cols[i].dates;
      }
    }
  }

  /** No renormalisation: when every column's weight is `c` times another's,
      the portfolio return on every date is `c` times the other's. */
  lemma WeightedSumScales(cols: seq<Column>, ws: seq<real>, ws': seq<real>, c: real, d: Date)
    requires |ws| == |ws'| == |cols|
    requires forall i :: 0 <= i < |cols| ==> ValidColumn(cols[i])
    requires forall i :: 0 <= i < |cols| ==> ws'[i] == c * ws[i]
    ensures WeightedSum(cols, ws', d) == c * WeightedSum(cols, ws, d)
  {
    var vs := ValuesOn(cols, d);
    assert WeightedSum(cols, ws', d) == Dot(ws', vs) && WeightedSum(cols, ws, d) == Dot(ws, vs);
    DotScales(ws, ws', vs, c);
  }

  /** Multiplying every weight of the dictionary by `c` multiplies every
      aligned weight by `c`, so the portfolio return scales with it. */
  lemma AlignedWeightsScale(cols: seq<Column>, w: Dict<Ticker, real>, c: real)
    requires UniqueKeys(w)
    ensures forall i :: 0 <= i < |cols| ==> AlignedWeights(cols, Scale(w, c))[i] == c * AlignedWeights(cols, w)[i]
  {
    forall i | 0 <= i < |cols|
      ensures AlignedWeights(cols, Scale(w, c))[i] == c * AlignedWeights(cols, w)[i]
    {
      ScaledWeightOf(w, c, cols[i].ticker);
    }
  }

  /** A weight for a ticker that has no column changes nothing. */
  lemma UnlistedWeightIgnored(cols: seq<Column>, w: Dict<Ticker, real>, t: Ticker, v: real)
    requires forall i :: 0 <= i < |cols| ==> ValidColumn(cols[i])
    requires forall i :: 0 <= i < |cols| ==> cols[i].ticker != t
    ensures Aggregate(cols, Put(w, t, v)) == Aggregate(cols, w)
  {
    var ws, ws' := AlignedWeights(cols, w), AlignedWeights(cols, Put(w, t, v));
    forall i | 0 <= i < |cols|
      ensures ws'[i] == ws[i]
    {
      assert Get(Put(w, t, v), cols[i].ticker) == Get(w, cols[i].ticker);
    }
    assert ws' == ws;
  }

  /** With one column, the weighted sum is that column's value times its weight. */
  lemma SingleColumnSum(c: Column, x: real, d: Date)
    requires ValidColumn(c)
    ensures WeightedSum([c], [x], d) == x * ValueOn(c, d)
  {
    var v := ValueOn(c, d);
    calc {
      WeightedSum([c], [x], d);
      Dot([x], ValuesOn([c], d));
      { assert ValuesOn([c], d) == [v]; }
      Dot([x], [v]);
      { DotOne(x, v); }
      x * v;
    }
  }

  /** One column's own dates are the aligned index. */
  lemma SingleColumnDates(c: Column)
    requires ValidColumn(c)
    ensures UnionDates([c]) == c.dates
  {
    assert [c][..0] == [];
    assert UnionDates([c]) == Merge([], c.dates);
  }

  /** A single ticker at full weight: the portfolio is that ticker's backtest. */
  lemma SingleFullWeightIsTicker(c: Column, w: Dict<Ticker, real>)
    requires ValidColumn(c)
    requires WeightOf(w, c.ticker) == 1.0
    ensures Aggregate([c], w).dates == c.dates
    ensures Aggregate([c], w).netReturns == c.values
  {
    var ws := AlignedWeights([c], w);
    assert ws == [1.0];
    SingleColumnDates(c);
    var rets := PortfolioReturns([c], ws, c.dates);
    assert Aggregate([c], w).netReturns == rets;
    forall k | 0 <= k < |c.dates|
      ensures rets[k] == c.values[k]
    {
      SingleColumnSum(c, 1.0, c.dates[k]);
    }
  }
}

=== FILE: signals.dfy ===
/** The signal classifier of signals.py and the per-ticker "latest signal"
    snapshot. The indicator engine (moving averages, RSI and MACD from an
    external technical-analysis library) is a parameter: an `Engine` maps a
    price series and window lengths to the indicator rows that have full
    history. */
module Signals {
  import opened Wrappers
  import opened Dicts
  import opened Market

  /** One bar of a price frame; only the date and the close are read by the core. */
  datatype Bar = Bar(date: Date, close: real)

  type PriceSeries = seq<Bar>

  /** `ma_short`, `ma_long`, `rsi_period`: the engine's window lengths. */
  datatype IndicatorParams = IndicatorParams(maShort: int, maLong: int, rsiPeriod: int)

  /** `rsi_buy`, `rsi_sell`: the RSI gates of the classifier. */
  datatype Thresholds = Thresholds(rsiBuy: real, rsiSell: real)

  /** The `signals` section of the configuration. */
  datatype Params = Params(indicator: IndicatorParams, thresholds: Thresholds)

  /** The keyword defaults of `signal_from_row`. */
  const DefaultThresholds := Thresholds(35.0, 65.0)

  /** One row of the indicator frame: the bar's close plus SMA_S, SMA_L, RSI, MACD and MACD_SIG. */
  datatype IndicatorRow = IndicatorRow(
    date: Date, close: real,
    smaShort: real, smaLong: real, rsi: real, macd: real, macdSignal: real)

  /** The indicator engine: the rows of a price series that have every indicator defined. */
  type Engine = (PriceSeries, IndicatorParams) -> seq<IndicatorRow>

  /** `idx` places each row on a bar of `df` with the row's date and close,
      at strictly increasing positions. */
  predicate RowsAt(rows: seq<IndicatorRow>, df: PriceSeries, idx: seq<nat>)
  {
    && |idx| == |rows|
    && (forall k :: 0 <= k < |idx| ==> idx[k] < |df| && df[idx[k]] == Bar(rows[k].date, rows[k].close))
    && (forall k :: 0 < k < |idx| ==> idx[k - 1] < idx[k])
  }

  /** What `indicators` promises of its result: it is a copy of the price frame
      with columns added and incomplete rows dropped, so its rows are bars of
      the input, in the input's order, with dates and closes unchanged. */
  ghost predicate KeepsBars(rows: seq<IndicatorRow>, df: PriceSeries)
  {
    exists idx :: RowsAt(rows, df, idx)
  }

  /** Every row of an engine that keeps bars is a bar of its input. */
  lemma RowIsBar(rows: seq<IndicatorRow>, df: PriceSeries, k: nat)
    requires KeepsBars(rows, df) && k < |rows|
    ensures exists j :: 0 <= j < |df| && df[j] == Bar(rows[k].date, rows[k].close)
  {
    var idx :| RowsAt(rows, df, idx);
    assert df[idx[k]] == Bar(rows[k].date, rows[k].close);
  }

  /** Consecutive rows of an engine that keeps bars come from bars in the same order. */
  lemma RowPairIsBars(rows: seq<IndicatorRow>, df: PriceSeries, i: nat)
    requires KeepsBars(rows, df) && 0 < i < |rows|
    ensures exists j, k :: 0 <= j < k < |df|
              && df[j] == Bar(rows[i - 1].date, rows[i - 1].close)
              && df[k] == Bar(rows[i].date, rows[i].close)
  {
    var idx :| RowsAt(rows, df, idx);
    assert df[idx[i - 1]] == Bar(rows[i - 1].date, rows[i - 1].close);
    assert df[idx[i]] == Bar(rows[i].date, rows[i].close);
  }

  datatype Signal = Buy | Sell | Hold

  /** `signal_from_row`: HOLD, overwritten by BUY when its test passes, then
      by SELL when its test passes. The two tests exclude each other through
      the moving-average comparison, so the second assignment never undoes a
      BUY and each signal is returned exactly when its own test holds. */
  function Classify(row: IndicatorRow, th: Thresholds): (s: Signal)
    ensures s == Buy <==> row.smaShort > row.smaLong && row.rsi < th.rsiSell && row.macd > row.macdSignal
    ensures s == Sell <==> row.smaShort < row.smaLong && row.rsi > th.rsiBuy && row.macd < row.macdSignal
    ensures s == Hold <==>
              && !(row.smaShort > row.smaLong && row.rsi < th.rsiSell && row.macd > row.macdSignal)
              && !(row.smaShort < row.smaLong && row.rsi > th.rsiBuy && row.macd < row.macdSignal)
  {
    var initial := Hold;
    var afterBuy :=
      if row.smaShort > row.smaLong && row.rsi < th.rsiSell && row.macd > row.macdSignal
      then Buy else initial;
    if row.smaShort < row.smaLong && row.rsi > th.rsiBuy && row.macd < row.macdSignal
    then Sell else afterBuy
  }

  /** `signal_from_row(row)` with the thresholds left at their defaults 35 and 65. */
  function ClassifyDefault(row: IndicatorRow): (s: Signal)
    ensures s == Buy <==> row.smaShort > row.smaLong && row.rsi < 65.0 && row.macd > row.macdSignal
    ensures s == Sell <==> row.smaShort < row.smaLong && row.rsi > 35.0 && row.macd < row.macdSignal
  {
    Classify(row, DefaultThresholds)
  }

  /** With equal moving averages neither test can pass. */
  lemma HoldOnEqualAverages(row: IndicatorRow, th: Thresholds)
    requires row.smaShort == row.smaLong
    ensures Classify(row, th) == Hold
  {
  }

  /** One entry of `generate_signals`' result. */
  datatype SignalEntry = SignalEntry(
    signal: Signal, close: real,
    smaShort: real, smaLong: real, rsi: real, macd: real, macdSignal: real)

  /** `e` is the snapshot of `row`: its classification and its numeric fields verbatim. */
  predicate Describes(e: SignalEntry, row: IndicatorRow, th: Thresholds)
  {
    && e.signal == Classify(row, th)
    && e.close == row.close && e.smaShort == row.smaShort && e.smaLong == row.smaLong
    && e.rsi == row.rsi && e.macd == row.macd && e.macdSignal == row.macdSignal
  }

  function Snapshot(row: IndicatorRow, th: Thresholds): SignalEntry
  {
    SignalEntry(Classify(row, th), row.close, row.smaShort, row.smaLong, row.rsi, row.macd, row.macdSignal)
  }

  /** The tickers of `prices` whose indicator frame has a row, in the order of `prices`. */
  function TickersWithRows(prices: Dict<Ticker, PriceSeries>, ind: IndicatorParams, engine: Engine): (ts: seq<Ticker>)
    ensures forall t :: t in ts ==> HasKey(prices, t)
    decreases |prices|
  {
    if |prices| == 0 then []
    else
      var n := |prices| - 1;
      var init := TickersWithRows(prices[..n], ind, engine);
      assert forall t :: HasKey(prices[..n], t) ==> HasKey(prices, t) by {
        forall t | HasKey(prices[..n], t) ensures HasKey(prices, t) {
          var j :| 0 <= j < n && prices[..n][j].0 == t;
          assert prices[j].0 == t;
        }
      }
      if |engine(prices[n].1, ind)| > 0 then init + [prices[n].0] else init
  }

  /** The dictionary `generate_signals` builds, one ticker of `prices` at a
      time: a ticker whose indicator frame has a row is stored with the
      snapshot of its last row. */
  function LatestSignals(prices: Dict<Ticker, PriceSeries>, params: Params, engine: Engine): Dict<Ticker, SignalEntry>
    decreases |prices|
  {
    if |prices| == 0 then []
    else
      var n := |prices| - 1;
      var rows := engine(prices[n].1, params.indicator);
      var init := LatestSignals(prices[..n], params, engine);
      if |rows| > 0 then Put(init, prices[n].0, Snapshot(rows[|rows| - 1], params.thresholds)) else init
  }

  /** Taking one more ticker of `prices` into account. */
  lemma LatestSignalsStep(prices: Dict<Ticker, PriceSeries>, params: Params, engine: Engine, k: nat)
    requires k < |prices|
    ensures var rows := engine(prices[k].1, params.indicator);
            var init := LatestSignals(prices[..k], params, engine);
            LatestSignals(prices[..k + 1], params, engine)
              == if |rows| > 0 then Put(init, prices[k].0, Snapshot(rows[|rows| - 1], params.thresholds)) else init
  {
    var p := prices[..k + 1];
    assert |p| - 1 == k && p[..k] == prices[..k] && p[k] == prices[k];
  }

  /** Every key of the result is a ticker of `prices`. */
  lemma {:induction false} LatestSignalsFrom(prices: Dict<Ticker, PriceSeries>, params: Params, engine: Engine, t: Ticker)
    requires HasKey(LatestSignals(prices, params, engine), t)
    ensures HasKey(prices, t)
    decreases |prices|
  {
    var n := |prices| - 1;
    if prices[n].0 != t {
      LatestSignalsFrom(prices[..n], params, engine, t);
      var m :| 0 <= m < n && prices[..n][m].0 == t;
      assert prices[m].0 == t;
    }
  }

  /** The keys of the result are the tickers with rows, in the order of `prices`. */
  lemma {:induction false} LatestSignalsKeys(prices: Dict<Ticker, PriceSeries>, params: Params, engine: Engine)
    requires UniqueKeys(prices)
    ensures var out := LatestSignals(prices, params, engine);
            && UniqueKeys(out)
            && KeysOf(out) == TickersWithRows(prices, params.indicator, engine)
    decreases |prices|
  {
    if |prices| > 0 {
      var n := |prices| - 1;
      var init := LatestSignals(prices[..n], params, engine);
      LatestSignalsKeys(prices[..n], params, engine);
      var rows := engine(prices[n].1, params.indicator);
      if |rows| > 0 {
        var t := prices[n].0;
        var v := Snapshot(rows[|rows| - 1], params.thresholds);
        assert !HasKey(init, t) by {
          if HasKey(init, t) {
            LatestSignalsFrom(prices[..n], params, engine, t);
          }
        }
        assert KeysOf(init + [(t, v)]) == KeysOf(init) + [t];
      }
    }
  }

  /** A ticker is a key of the result exactly when its frame has a row, and
      then it holds the snapshot of the last row. */
  lemma {:induction false} LatestSignalsEntry(prices: Dict<Ticker, PriceSeries>, params: Params, engine: Engine, i: nat)
    requires UniqueKeys(prices) && i < |prices|
    ensures var out := LatestSignals(prices, params, engine);
            var rows := engine(prices[i].1, params.indicator);
            && (HasKey(out, prices[i].0) <==> |rows| > 0)
            && (|rows| > 0 ==> Get(out, prices[i].0) == Some(Snapshot(rows[|rows| - 1], params.thresholds)))
    decreases |prices|
  {
    var n := |prices| - 1;
    var rows := engine(prices[n].1, params.indicator);
    var init := LatestSignals(prices[..n], params, engine);
    if i < n {
      LatestSignalsEntry(prices[..n], params, engine, i);
      assert prices[..n][i] == prices[i];
      assert prices[i].0 != prices[n].0;
      if |rows| > 0 {
        var out := Put(init, prices[n].0, Snapshot(rows[|rows| - 1], params.thresholds));
        assert Get(out, prices[i].0) == Get(init, prices[i].0);
        assert HasKey(out, prices[i].0) <==> HasKey(init, prices[i].0);
      }
    } else {
      assert i == n;
      if |rows| == 0 {
        assert !HasKey(init, prices[n].0) by {
          if HasKey(init, prices[n].0) {
            LatestSignalsFrom(prices[..n], params, engine, prices[n].0);
          }
        }
      }
    }
  }

  /** `generate_signals`: for each ticker, in the order of `prices`, run the
      engine and, unless it yields no row, record the snapshot of the last row. */
  method GenerateSignals(prices: Dict<Ticker, PriceSeries>, params: Params, engine: Engine)
    returns (out: Dict<Ticker, SignalEntry>)
    requires UniqueKeys(prices)
    ensures UniqueKeys(out)
    ensures KeysOf(out) == TickersWithRows(prices, params.indicator, engine)
    ensures forall t :: HasKey(out, t) ==> HasKey(prices, t)
    ensures forall i :: 0 <= i < |prices| ==>
              (HasKey(out, prices[i].0) <==> |engine(prices[i].1, params.indicator)| > 0)
    ensures forall i :: 0 <= i < |prices| && |engine(prices[i].1, params.indicator)| > 0 ==>
              var rows := engine(prices[i].1, params.indicator);
              && Get(out, prices[i].0).Some?
              && Describes(Get(out, prices[i].0).value, rows[|rows| - 1], params.thresholds)
    ensures forall i :: 0 <= i < |prices| && |engine(prices[i].1, params.indicator)| > 0
                        && KeepsBars(engine(prices[i].1, params.indicator), prices[i].1) ==>
              var rows := engine(prices[i].1, params.indicator);
              exists j :: 0 <= j < |prices[i].1|
                && prices[i].1[j] == Bar(rows[|rows| - 1].date, Get(out, prices[i].0).value.close)
  {
    out := [];
    var k := 0;
    while k < |prices|
      invariant 0 <= k <= |prices|
      invariant out == LatestSignals(prices[..k], params, engine)
    {
      var (t, df) := prices[k];
      var ind := engine(df, params.indicator);
      LatestSignalsStep(prices, params, engine, k);
      if |ind| > 0 {
        var last := ind[|ind| - 1];
        out := Put(out, t, Snapshot(last, params.thresholds));
      }
      k := k + 1;
    }
    assert prices[..k] == prices;
    LatestSignalsKeys(prices, params, engine);
    forall t | HasKey(out, t)
      ensures HasKey(prices, t)
    {
      LatestSignalsFrom(prices, params, engine, t);
    }
    forall i | 0 <= i < |prices|
      ensures var rows := engine(prices[i].1, params.indicator);
              && (HasKey(out, prices[i].0) <==> |rows| > 0)
              && (|rows| > 0 ==> Get(out, prices[i].0) == Some(Snapshot(rows[|rows| - 1], params.thresholds)))
    {
      LatestSignalsEntry(prices, params, engine, i);
    }
    forall i | 0 <= i < |prices| && |engine(prices[i].1, params.indicator)| > 0
                 && KeepsBars(engine(prices[i].1, params.indicator), prices[i].1)
      ensures var rows := engine(prices[i].1, params.indicator);
              exists j :: 0 <= j < |prices[i].1|
                && prices[i].1[j] == Bar(rows[|rows| - 1].date, Get(out, prices[i].0).value.close)
    {
      var rows := engine(prices[i].1, params.indicator);
      RowIsBar(rows, prices[i].1, |rows| - 1);
    }
  }
}

=== FILE: text.dfy ===
/** The Python string operations the core relies on: `str.split(sep)`,
    `str.strip()`, `sep.join(...)` and the code-point order of `<`. */
module Text {

  /** Characters for which Python's `str.isspace()` holds, i.e. what `strip()` removes. */
  const Whitespace: set<char> := {
    ' ', '\t', '\n', '\r', '\U{000B}', '\U{000C}',
    '\U{001C}', '\U{001D}', '\U{001E}', '\U{001F}',
    '\U{0085}', '\U{00A0}', '\U{1680}',
    '\U{2000}', '\U{2001}', '\U{2002}', '\U{2003}', '\U{2004}', '\U{2005}',
    '\U{2006}', '\U{2007}', '\U{2008}', '\U{2009}', '\U{200A}',
    '\U{2028}', '\U{2029}', '\U{202F}', '\U{205F}', '\U{3000}'
  }

  predicate IsSpace(c: char)
  {
    c in Whitespace
  }

  predicate AllSpace(s: string)
  {
    forall i :: 0 <= i < |s| ==> IsSpace(s[i])
  }

  /** How many whitespace characters `s.lstrip()` removes from the front. */
  function LeadingSpace(s: string): (n: nat)
    ensures n <= |s|
    decreases |s|
  {
    if |s| > 0 && IsSpace(s[0]) then 1 + LeadingSpace(s[1..]) else 0
  }

  /** The removed run is whitespace, and the first character kept is not. */
  lemma {:induction false} LeadingSpaceSpec(s: string)
    ensures AllSpace(s[..LeadingSpace(s)])
    ensures LeadingSpace(s) < |s| ==> !IsSpace(s[LeadingSpace(s)])
    decreases |s|
  {
    if |s| > 0 && IsSpace(s[0]) {
      LeadingSpaceSpec(s[1..]);
      var n := LeadingSpace(s[1..]);
      assert s[..n + 1] == [s[0]] + s[1..][..n];
      if n + 1 < |s| {
        assert s[n + 1] == s[1..][n];
      }
    }
  }

  /** How many whitespace characters `s.rstrip()` removes from the back. */
  function TrailingSpace(s: string): (n: nat)
    ensures n <= |s|
    decreases |s|
  {
    if |s| > 0 && IsSpace(s[|s| - 1]) then 1 + TrailingSpace(s[..|s| - 1]) else 0
  }

  /** The removed run is whitespace, and the last character kept is not. */
  lemma {:induction false} TrailingSpaceSpec(s: string)
    ensures AllSpace(s[|s| - TrailingSpace(s)..])
    ensures TrailingSpace(s) < |s| ==> !IsSpace(s[|s| - TrailingSpace(s) - 1])
    decreases |s|
  {
    if |s| > 0 && IsSpace(s[|s| - 1]) {
      var init := s[..|s| - 1];
      TrailingSpaceSpec(init);
      var n := TrailingSpace(init);
      assert s[|s| - (n + 1)..] == init[|init| - n..] + [s[|s| - 1]];
      if n + 1 < |s| {
        assert s[|s| - (n + 1) - 1] == init[|init| - n - 1];
      }
    }
  }

  /** `s.strip()`: `s` without its leading and trailing whitespace. */
  function Strip(s: string): (r: string)
    ensures |r| <= |s|
  {
    var i := LeadingSpace(s);
    var a := s[i..];
    a[..|a| - TrailingSpace(a)]
  }

  /** What `strip()` keeps is a contiguous run of `s` with only whitespace
      before and after it. */
  lemma StripIsInfix(s: string)
    ensures var r := Strip(s);
            exists i :: 0 <= i <= i + |r| <= |s| && r == s[i..i + |r|] && AllSpace(s[..i]) && AllSpace(s[i + |r|..])
  {
    var i := LeadingSpace(s);
    var a := s[i..];
    var t := TrailingSpace(a);
    var r := a[..|a| - t];
    assert Strip(s) == r;
    LeadingSpaceSpec(s);
    TrailingSpaceSpec(a);
    var j := i + |r|;
    assert s[j..] == a[|a| - t..];
    assert r == s[i..j];
    assert AllSpace(s[..i]) && AllSpace(s[j..]);
  }

  /** What `strip()` keeps neither starts nor ends with whitespace. */
  lemma StripEnds(s: string)
    ensures var r := Strip(s);
            r == [] || (!IsSpace(r[0]) && !IsSpace(r[|r| - 1]))
  {
    var i := LeadingSpace(s);
    var a := s[i..];
    var t := TrailingSpace(a);
    var r := a[..|a| - t];
    if r != [] {
      LeadingSpaceSpec(s);
      TrailingSpaceSpec(a);
      assert r[0] == s[i];
      assert r[|r| - 1] == a[|a| - t - 1];
    }
  }

  /** `s.strip()` is empty exactly when `s` is blank: the test behind
      skipping empty pieces. */
  lemma StripEmptyIffBlank(s: string)
    ensures Strip(s) == [] <==> AllSpace(s)
  {
    var i := LeadingSpace(s);
    var a := s[i..];
    var t := TrailingSpace(a);
    var r := a[..|a| - t];
    assert Strip(s) == r;
    LeadingSpaceSpec(s);
    TrailingSpaceSpec(a);
    if r == [] {
      assert a[|a| - t..] == a;
      if i < |s| {
        assert false;
      }
      assert s[..i] == s;
    } else {
      assert r[0] == s[i];
    }
  }

  /** Number of occurrences of `c` in `s`. */
  function Occurrences(s: string, c: char): nat
  {
    if |s| == 0 then 0 else Occurrences(s[..|s| - 1], c) + (if s[|s| - 1] == c then 1 else 0)
  }

  /** Position of the first `c` in `s`. */
  function FirstIndex(s: string, c: char): (i: nat)
    requires c in s
    ensures i < |s| && s[i] == c && c !in s[..i]
    decreases |s|
  {
    if s[0] == c then 0
    else
      var i := 1 + FirstIndex(s[1..], c);
      assert s[..i] == [s[0]] + s[1..][..i - 1];
      i
  }

  lemma OccurrencesAppend(a: string, b: string, c: char)
    ensures Occurrences(a + b, c) == Occurrences(a, c) + Occurrences(b, c)
    decreases |b|
  {
    if |b| > 0 {
      assert (a + b)[..|a + b| - 1] == a + b[..|b| - 1];
      OccurrencesAppend(a, b[..|b| - 1], c);
    } else {
      assert a + b == a;
    }
  }

  lemma OccurrencesAbsent(s: string, c: char)
    requires c !in s
    ensures Occurrences(s, c) == 0
    decreases |s|
  {
    if |s| > 0 {
      assert c !in s[..|s| - 1];
      OccurrencesAbsent(s[..|s| - 1], c);
    }
  }

  /** `sep.join(parts)` */
  function Join(parts: seq<string>, sep: string): (r: string)
    ensures |parts| > 0 ==> parts[0] <= r
    ensures forall k :: 0 <= k < |r| ==> r[k] in sep || exists j :: 0 <= j < |parts| && r[k] in parts[j]
    decreases |parts|
  {
    if |parts| == 0 then ""
    else if |parts| == 1 then parts[0]
    else
      var rest := Join(parts[1..], sep);
      assert forall k :: 0 <= k < |rest| && rest[k] !in sep ==> exists j :: 0 <= j < |parts| && rest[k] in parts[j] by {
        forall k | 0 <= k < |rest| && rest[k] !in sep
          ensures exists j :: 0 <= j < |parts| && rest[k] in parts[j]
        {
          var j :| 0 <= j < |parts| - 1 && rest[k] in parts[1..][j];
          assert parts[1..][j] == parts[j + 1];
        }
      }
      var r := parts[0] + sep + rest;
      forall k | 0 <= k < |r|
        ensures r[k] in sep || exists j :: 0 <= j < |parts| && r[k] in parts[j]
      {
        if k < |parts[0]| {
          assert r[k] == parts[0][k];
        } else if k < |parts[0]| + |sep| {
          assert r[k] == sep[k - |parts[0]|];
        } else {
          assert r[k] == rest[k - |parts[0]| - |sep|];
        }
      }
      r
  }

  /** Every character of a piece occurs in the joined text. */
  lemma {:induction false} JoinKeepsChars(parts: seq<string>, sep: string, j: nat, k: nat)
    requires j < |parts| && k < |parts[j]|
    ensures parts[j][k] in Join(parts, sep)
    decreases |parts|
  {
    if |parts| > 1 {
      var rest := Join(parts[1..], sep);
      assert Join(parts, sep) == parts[0] + sep + rest;
      if j == 0 {
        assert Join(parts, sep)[k] == parts[0][k];
      } else {
        JoinKeepsChars(parts[1..], sep, j - 1, k);
        assert parts[1..][j - 1] == parts[j];
      }
    }
  }

  /** `s.split(sep)` for a one-character separator: the pieces between
      separators, never fewer than one, and joining them back gives `s`. */
  function Split(s: string, sep: char): (r: seq<string>)
    ensures |r| == Occurrences(s, sep) + 1
    ensures forall i :: 0 <= i < |r| ==> sep !in r[i]
    ensures Join(r, [sep]) == s
    decreases |s|
  {
    if sep !in s then
      OccurrencesAbsent(s, sep);
      [s]
    else
      var i := FirstIndex(s, sep);
      var rest := Split(s[i + 1..], sep);
      assert s == s[..i] + [sep] + s[i + 1..];
      OccurrencesAbsent(s[..i], sep);
      OccurrencesAppend(s[..i] + [sep], s[i + 1..], sep);
      OccurrencesAppend(s[..i], [sep], sep);
      assert Occurrences([sep], sep) == 1 by {
        assert [sep][..0] == [];
      }
      var r := [s[..i]] + rest;
      assert r[1..] == rest;
      r
  }

  /** With exactly one separator, `s.split(sep)` is the text before the
      separator and the text after it. */
  lemma SplitInTwo(s: string, sep: char)
    requires Occurrences(s, sep) == 1
    ensures sep in s
    ensures var k := FirstIndex(s, sep);
            Split(s, sep) == [s[..k], s[k + 1..]] && sep !in s[k + 1..]
  {
    var parts := Split(s, sep);
    assert |parts| == 2;
    var n := |parts[0]|;
    assert s == parts[0] + [sep] + parts[1] by {
      assert Join(parts[1..], [sep]) == parts[1];
    }
    assert s[n] == sep;
    var k := FirstIndex(s, sep);
    FirstIndexAfter(s, parts[0], sep);
    assert s[..k] == parts[0] && s[k + 1..] == parts[1];
  }

  /** In `a + [sep] + b` with no `sep` in `a`, the first `sep` follows `a`. */
  lemma FirstIndexAfter(s: string, a: string, sep: char)
    requires sep !in a && |a| < |s| && s[..|a|] == a && s[|a|] == sep
    ensures sep in s && FirstIndex(s, sep) == |a|
  {
    var k := FirstIndex(s, sep);
  }

  /** Splitting a join of separator-free pieces gives the pieces back. */
  lemma {:induction false} SplitJoin(parts: seq<string>, sep: char)
    requires |parts| > 0
    requires forall i :: 0 <= i < |parts| ==> sep !in parts[i]
    ensures Split(Join(parts, [sep]), sep) == parts
    decreases |parts|
  {
    if |parts| > 1 {
      var s := Join(parts, [sep]);
      var tail := Join(parts[1..], [sep]);
      var n := |parts[0]|;
      assert s == parts[0] + [sep] + tail;
      assert s[..n] == parts[0] && s[n + 1..] == tail;
      FirstIndexAfter(s, parts[0], sep);
      assert Split(s, sep) == [parts[0]] + Split(tail, sep);
      SplitJoin(parts[1..], sep);
      assert [parts[0]] + parts[1..] == parts;
    }
  }

  /** Python's `a <= b` on strings: lexicographic by code point. */
  predicate StrLe(a: string, b: string)
    decreases |a|
  {
    |a| == 0 || (|b| > 0 && (a[0] < b[0] || (a[0] == b[0] && StrLe(a[1..], b[1..]))))
  }

  /** Any two strings are comparable, so sorting by name is well defined. */
  lemma {:induction false} StrLeTotal(a: string, b: string)
    ensures StrLe(a, b) || StrLe(b, a)
    decreases |a|
  {
    if |a| > 0 && |b| > 0 && a[0] == b[0] {
      StrLeTotal(a[1..], b[1..]);
    }
  }

  /** Only equal strings are ordered both ways. */
  lemma {:induction false} StrLeAntisymmetric(a: string, b: string)
    requires StrLe(a, b) && StrLe(b, a)
    ensures a == b
    decreases |a|
  {
    if |a| > 0 {
      StrLeAntisymmetric(a[1..], b[1..]);
      assert a == [a[0]] + a[1..] && b == [b[0]] + b[1..];
    }
  }

  /** Python's string order is transitive. */
  lemma {:induction false} StrLeTransitive(a: string, b: string, c: string)
    requires StrLe(a, b) && StrLe(b, c)
    ensures StrLe(a, c)
    decreases |a|
  {
    if |a| > 0 && a[0] == b[0] && b[0] == c[0] {
      StrLeTransitive(a[1..], b[1..], c[1..]);
    }
  }
}

=== FILE: weights.dfy ===
/** Portfolio weights: a dictionary from ticker to the fraction of capital
    it receives, and the equal split used whenever none is given. */
module Weights {
  import opened Wrappers
  import opened Numbers
  import opened Dicts
  import opened Market

  /** `{t: share for t in keys}`: every key receives the same share; a key
      listed twice is stored once. */
  function Uniform(keys: seq<Ticker>, share: real): (w: Dict<Ticker, real>)
    ensures UniqueKeys(w)
    ensures forall t :: HasKey(w, t) <==> t in keys
    ensures forall t :: t in keys ==> Get(w, t) == Some(share)
    ensures |w| <= |keys|
    decreases |keys|
  {
    if |keys| == 0 then []
    else
      var init := Uniform(keys[..|keys| - 1], share);
      assert forall t :: t in keys <==> t in keys[..|keys| - 1] || t == keys[|keys| - 1] by {
        assert keys == keys[..|keys| - 1] + [keys[|keys| - 1]];
      }
      Put(init, keys[|keys| - 1], share)
  }

  /** `{t: 1/len(tickers) for t in tickers}`: the share is one over the
      length of the list, duplicates included; no list gives no weights. */
  function EqualWeights(tickers: seq<Ticker>): (w: Dict<Ticker, real>)
    ensures UniqueKeys(w)
    ensures forall t :: HasKey(w, t) <==> t in tickers
    ensures forall t :: t in tickers ==> Get(w, t) == Some(1.0 / |tickers| as real)
  {
    if |tickers| == 0 then [] else Uniform(tickers, 1.0 / |tickers| as real)
  }

  /** Dropping the last of distinct keys leaves distinct keys without it. */
  lemma DistinctInit(keys: seq<Ticker>)
    requires |keys| > 0
    requires forall i, j :: 0 <= i < j < |keys| ==> keys[i] != keys[j]
    ensures var init := keys[..|keys| - 1];
            (forall i, j :: 0 <= i < j < |init| ==> init[i] != init[j]) && keys[|keys| - 1] !in init
  {
    var init, last := keys[..|keys| - 1], keys[|keys| - 1];
    forall i | 0 <= i < |init|
      ensures init[i] == keys[i]
    {
    }
  }

  /** Distinct keys each receive one entry, in listed order. */
  lemma {:induction false} UniformOfDistinct(keys: seq<Ticker>, share: real)
    requires forall i, j :: 0 <= i < j < |keys| ==> keys[i] != keys[j]
    ensures |Uniform(keys, share)| == |keys|
    ensures forall i :: 0 <= i < |keys| ==> Uniform(keys, share)[i] == (keys[i], share)
    decreases |keys|
  {
    if |keys| > 0 {
      var init, last := keys[..|keys| - 1], keys[|keys| - 1];
      DistinctInit(keys);
      UniformOfDistinct(init, share);
      var prev := Uniform(init, share);
      assert Uniform(keys, share) == prev + [(last, share)] by {
        assert !HasKey(prev, last);
      }
      forall i | 0 <= i < |init|
        ensures Uniform(keys, share)[i] == (keys[i], share)
      {
        assert init[i] == keys[i];
      }
    }
  }

  /** Weights that all carry the same share add up to their number times it. */
  lemma ConstantSum(w: Dict<Ticker, real>, share: real)
    requires forall i :: 0 <= i < |w| ==> w[i].1 == share
    ensures Sum(w) == |w| as real * share
  {
    SumOfConstant(ValuesOf(w), share);
  }

  /** The sum of `n` equal shares over distinct keys is `n` times the share. */
  lemma UniformSum(keys: seq<Ticker>, share: real)
    requires forall i, j :: 0 <= i < j < |keys| ==> keys[i] != keys[j]
    ensures Sum(Uniform(keys, share)) == |keys| as real * share
  {
    var w := Uniform(keys, share);
    assert |w| == |keys| && forall i :: 0 <= i < |w| ==> w[i].1 == share by {
      UniformOfDistinct(keys, share);
    }
    ConstantSum(w, share);
  }

  /** Equal weights over distinct tickers add up to exactly one. */
  lemma EqualWeightsSumToOne(tickers: seq<Ticker>)
    requires |tickers| > 0
    requires forall i, j :: 0 <= i < j < |tickers| ==> tickers[i] != tickers[j]
    ensures Sum(EqualWeights(tickers)) == 1.0
  {
    var n := |tickers| as real;
    UniformSum(tickers, 1.0 / n);
    assert n * (1.0 / n) == 1.0;
  }

  /** `w.reindex(columns).fillna(0.0)` for one column: the weight given to a
      ticker, zero when none is given. */
  function WeightOf(w: Dict<Ticker, real>, t: Ticker): (x: real)
    ensures !HasKey(w, t) ==> x == 0.0
    ensures UniqueKeys(w) ==> forall i :: 0 <= i < |w| && w[i].0 == t ==> x == w[i].1
  {
    match Get(w, t)
    case None => 0.0
    case Some(v) => v
  }

  /** Every weight multiplied by `c`. */
  function Scale(w: Dict<Ticker, real>, c: real): (s: Dict<Ticker, real>)
    ensures |s| == |w| && KeysOf(s) == KeysOf(w)
    ensures forall i :: 0 <= i < |w| ==> s[i].0 == w[i].0 && s[i].1 == w[i].1 * c
    ensures UniqueKeys(w) ==> UniqueKeys(s)
  {
    seq(|w|, i requires 0 <= i < |w| => (w[i].0, w[i].1 * c))
  }

  lemma ScaledWeightOf(w: Dict<Ticker, real>, c: real, t: Ticker)
    requires UniqueKeys(w)
    ensures WeightOf(Scale(w, c), t) == c * WeightOf(w, t)
  {
    var s := Scale(w, c);
    assert UniqueKeys(s);
    if HasKey(w, t) {
      var i :| 0 <= i < |w| && w[i].0 == t;
      assert s[i].0 == t;
    }
  }

  /** Sum of weights scaled by `c` is `c` times the sum. */
  lemma SumOfScale(w: Dict<Ticker, real>, c: real)
    ensures Sum(Scale(w, c)) == c * Sum(w)
  {
    var vs, svs := ValuesOf(w), ValuesOf(Scale(w, c));
    assert forall i :: 0 <= i < |vs| ==> svs[i] == c * vs[i];
    SumOfScaled(vs, svs, c);
  }
}

=== FILE: wrappers.dfy ===
/** Failure-carrying values: the model's replacement for Python's `None`,
    pandas' NaN sentinel and raised exceptions. */
module Wrappers {

  /** A value that may be absent (Python `None`, or a metric pandas reports as NaN). */
  datatype Option<+T> = None | Some(value: T)

  /** Either a value or the error the source would raise instead. */
  datatype Result<+R, +E> = Success(value: R) | Failure(error: E)
}
